=== FILE: README.md ===
# RailsLite core, modelled in Dafny

This project models the core of RailsLite, a small re-implementation of
Rails in Ruby. It covers three parts:

- The object-relational layer (`lib/active_record_base.rb`):
  - `SQLObject` construction, `attribute_values`, `insert`, `update`,
    `save`, `find`, `all`, `parse_all` and `table_name`;
  - the lazy, cached query `Relation` (`where`, `load`, `cache`, `==`,
    and the forwarded `length`, `[]` and `first`);
  - the association options and `Associatable`'s `belongs_to`,
    `has_many`, `assoc_options` and `has_one_through`.
- The controller layer (`lib/controller_base.rb`):
  - the build-once response guard of `render_content` and `redirect_to`,
    and `invoke_action`'s default render;
  - the cookie-backed `Session` and `Flash`;
  - `Params`, with `parse_key` and `parse_www_encoded_form`;
  - `Route#matches?`, `Router#add_route`, `Router#match` and `Router#run`.
- `build_chain` and `merger` (`rails_base/bin/bottom_up_nick.rb`).

## How things are modelled

- The SQLite database is an abstract store: table name to `Table(columns, rows)`.
- A row maps column names to `Nil | Int | Text` values.
- Ruby exceptions become the `Failure` case of a `Result`. Ruby `nil`
  becomes `None`.
- The SQLite behaviour the code relies on is written out:
  - `id` is the rowid, so rows are kept in ascending id order, which is
    the order a scan returns them in;
  - a row inserted with a NULL id gets one more than the largest id;
  - an explicit id already in use violates the key;
  - `col = NULL` never matches;
  - a relation with no criteria is a syntax error;
  - a missing table or column is a driver error.
- The ActiveSupport inflections (`underscore`, `pluralize`, `singularize`,
  `camelcase`) are fields of an `Inflector`: arbitrary functions.
- `constantize` is a lookup in a catalog of declared classes.
- A Ruby `Hash` is a plain map, except in two places where its insertion
  order shows: constructor arguments and relation criteria. There it is a
  sequence of pairs (`RubyHash`).
- Nested params and chains are `Nodes.Node` values: a string leaf, or a
  hash keyed by string, symbol or nil.
- A route's method is the name of its method symbol (`:get` is
  `"get"`), compared with the name of the downcased request method.
- The regular-expression engine behind routes is a `Matcher`. Controller
  actions and their rendered views are given by an `App`.

## Behaviour of the code worth knowing

- `has_many` does not register its options in `assoc_options`; only
  `belongs_to` does (`Associations.OnlyBelongsToRegisters`).
- `has_one_through` reads the through options when it is declared
  (lib/active_record_base.rb:130) and looks up only the source options
  when it is called.
- `has_one_through` raises `NoMethodError` when its through association
  was not declared first, or when the source association is missing.

## Model

| member | source | states |
|---|---|---|
| Wrappers.Message | lib/active_record_base.rb:281 | an unknown attribute is reported as "unknown attribute '<key>'" |
| RubyHash.PutGet | lib/active_record_base.rb:368 | after `h[k] = v`, `h[k]` is `v` and every other key reads as before |
| RubyHash.PutKeepsDistinct | lib/active_record_base.rb:368 | assigning into a hash never duplicates a key |
| RubyHash.Get | lib/active_record_base.rb:368 | `h[k]` is nil exactly when no pair has key `k`; otherwise a value stored under `k` |
| RubyHash.Put | lib/active_record_base.rb:368 | `h[k] = v` replaces in place when `k` is present, keeping every other pair and the key order, and appends `(k, v)` otherwise |
| RubyHash.MergeGet | lib/active_record_base.rb:368 | in `a.merge(b)` each key reads `b`'s value when `b` has it, else `a`'s |
| RubyHash.MergeKeepsDistinct | lib/active_record_base.rb:368 | a merge of hashes is a hash: no key occurs twice |
| RubyHash.MergeHasKey | lib/active_record_base.rb:368 | the keys of a merge are the keys of either side |
| RubyHash.Merge | lib/active_record_base.rb:368 | `a.merge(b)` keeps `a`'s keys in their places, before any new keys |
| Records.Read | lib/active_record_base.rb:235-237 | a column reader exists exactly for the reflected columns and returns the stored value, nil when unset |
| Records.Write | lib/active_record_base.rb:232-234 | a column writer exists exactly for the reflected columns; it sets that attribute and leaves every other one unchanged |
| Records.Assign | lib/active_record_base.rb:277-283 | the constructor loop fails exactly when some key is not a column, naming the first such key; on success each given key holds its value and other attributes are unchanged |
| Records.New | lib/active_record_base.rb:276-284 | construction fails with "unknown attribute '<key>'" for the first unknown key; otherwise the attributes are exactly the given keys with their values |
| Records.AttributeValues | lib/active_record_base.rb:290-294 | one value per column, in column order, nil for unset columns |
| Records.AttributeValuesRoundTrip | lib/active_record_base.rb:276-294 | constructing from column-ordered values and reading `attribute_values` gives the values back |
| Records.ParseRow | lib/active_record_base.rb:259-263 | constructing a record from a stored row succeeds and reproduces the row |
| Records.ParseAll | lib/active_record_base.rb:259-263 | one record per hash, in order; fails exactly when some hash has an unknown key |
| Records.All | lib/active_record_base.rb:249-257 | one record per stored row, in scan order, holding that row's values |
| Records.Find | lib/active_record_base.rb:265-274 | nil exactly when no row has the id; otherwise a row with that id |
| Records.FindFirst | lib/active_record_base.rb:265-274 | `find` returns the first row in scan order whose id matches |
| Records.FindUnique | lib/active_record_base.rb:265-274 | in a valid table, `find` on a row's id returns that row |
| Records.MaxId | lib/active_record_base.rb:305 | the largest integer id present, or none when no row has one |
| Records.FreshId | lib/active_record_base.rb:305 | the rowid given to a NULL-keyed insert is larger than every id in the table |
| Records.RowOf | lib/active_record_base.rb:296-318 | the written row has exactly the table's columns, each bound to the matching `attribute_values` entry |
| Records.ReadBack | lib/active_record_base.rb:296-318 | reading a written row back gives the values that were bound |
| Records.Insert | lib/active_record_base.rb:296-306 | succeeds exactly for a table with an `id` column and a nil or unused integer id; adds exactly one row holding `attribute_values`, in its rowid slot after the smaller ids and before the larger ones, and leaves an integer `id` on the record; a nil id gets a fresh id and its row goes last; without an `id` column, setting the id is NoMethodError |
| Records.InsertValid | lib/active_record_base.rb:296-306 | `insert` keeps ids ascending, hence unique, and rows shaped like the table |
| Records.InsertThenFind | lib/active_record_base.rb:296-306 | after `insert` the id is set, `all` has one more record, and `find(id)` returns the inserted values |
| Records.Update | lib/active_record_base.rb:308-318 | without an `id` column, reading the id is NoMethodError; otherwise rows whose id is the record's id are rewritten with `attribute_values`, all other rows, the row count and the columns are unchanged, and a nil id changes nothing |
| Records.UpdateValid | lib/active_record_base.rb:308-318 | `update` keeps every id and the table's validity |
| Records.UpdateThenFind | lib/active_record_base.rb:308-318 | after `update`, `find` on the record's id sees the rewritten values |
| Records.Save | lib/active_record_base.rb:320-322 | reading the id comes first, so a table without an `id` column is NoMethodError; otherwise `insert` exactly when the id is nil, `update` otherwise |
| Records.SaveTwice | lib/active_record_base.rb:320-322 | saving a new record inserts it and assigns an id; saving it again updates in place, with the same row count, and `find` still finds it |
| SqlText.InsertStatement | lib/active_record_base.rb:296-304 | the insert text has one `?` per column and binds `attribute_values` |
| SqlText.UpdateStatement | lib/active_record_base.rb:308-317 | the update text has one `?` per column plus one for the id, bound to `attribute_values` and then the id |
| SqlText.WhereStatement | lib/active_record_base.rb:371-380 | the relation's query has one `?` per criterion, bound to the criteria values in order |
| Query.Start | lib/active_record_base.rb:90-92 | `where` on a class gives an unloaded relation on the class's table with exactly those criteria |
| Query.Where | lib/active_record_base.rb:367-369 | a new, unloaded relation on the same table; a key reads the new value when given, else the old one |
| Query.MergedCriteria | lib/active_record_base.rb:367-369 | merged criteria answer each key from the newer criteria first and keep keys distinct |
| Query.Matching | lib/active_record_base.rb:371-382 | exactly the rows satisfying every equality, as records, empty exactly when none does, with the first satisfying row first |
| Query.MatchingSplit | lib/active_record_base.rb:371-382 | the matches of a concatenation are the front's matches followed by the back's, so scan order is kept |
| Query.MatchingAt | lib/active_record_base.rb:371-382 | each satisfying row appears once, at the position given by the number of matches before it |
| Query.MatchingKeepsAll | lib/active_record_base.rb:371-382 | when every row satisfies the criteria, the result is every row, once each, in order |
| Query.Load | lib/active_record_base.rb:371-382 | succeeds exactly for nonempty criteria on an existing table and its columns; yields the table's matches in scan order, counted and ordered as `Query.Matching` states |
| Query.SatisfiesByKey | lib/active_record_base.rb:371-380 | with distinct keys, satisfying the criteria means matching each key's value |
| Query.WhereChain | lib/active_record_base.rb:367-382 | `where(a).where(b)` keeps the rows satisfying `b` and every part of `a` that `b` does not override |
| Query.Observe | lib/active_record_base.rb:384-386 | the first observation loads and stores the result; a stored result is returned as is |
| Query.CacheWriteOnce | lib/active_record_base.rb:384-386 | once loaded, observing again yields the same records even against a changed store |
| Query.Equals | lib/active_record_base.rb:388-390 | `==` loads the relation as `cache` does and is true exactly when the loaded records equal the other operand, compared by value |
| Query.NoMatchEqualsEmpty | lib/active_record_base.rb:371-390 | a relation with no matching row equals `[]` |
| Query.Length | lib/active_record_base.rb:392-395 | `length` is the length of the cached result |
| Query.Index | lib/active_record_base.rb:392-395 | `[i]` indexes from the front, a negative index from the end, and gives nil out of range |
| Query.At | lib/active_record_base.rb:392-395 | `[i]` is forwarded to the cached result |
| Query.First | lib/active_record_base.rb:392-395 | `first` is the cached result's first element, or nil when it is empty, and the relation is left loaded as `cache` leaves it |
| Associations.BelongsToOptions | lib/active_record_base.rb:341-347 | defaults are foreign key `<name>_id`, primary key `id`, class `camelcase(name)`; a given option replaces its default |
| Associations.HasManyOptions | lib/active_record_base.rb:349-355 | defaults are foreign key `<underscore(owner)>_id`, primary key `id`, class `camelcase(singularize(name))`; a given option replaces its default |
| Associations.ExplicitOptionsWin | lib/active_record_base.rb:341-355 | with all options given, both kinds are exactly the given options, whatever the names |
| Associations.Define | lib/active_record_base.rb:124-127 | a new class starts with an empty `assoc_options` and no association readers |
| Associations.SetTableName | lib/active_record_base.rb:241-243 | `table_name=` changes only the table override |
| Associations.TableName | lib/active_record_base.rb:245-247 | the explicit table name if set, else the pluralized, underscored class name |
| Associations.TableNameSet | lib/active_record_base.rb:241-247 | after `table_name = t`, `table_name` is `t` |
| Associations.BelongsTo | lib/active_record_base.rb:97-109 | registers the options under the name and defines a reader for them; nothing else changes |
| Associations.HasMany | lib/active_record_base.rb:111-122 | defines a reader and leaves `assoc_options` unchanged |
| Associations.HasOneThrough | lib/active_record_base.rb:129-132 | captures the through options registered at declaration, nil when none; other readers and `assoc_options` are unchanged |
| Associations.OnlyBelongsToRegisters | lib/active_record_base.rb:97-130 | after a class body, `assoc_options` holds exactly the names declared with `belongs_to` |
| Associations.DeclareAll | lib/active_record_base.rb:97-130 | a class body keeps the class's name and table, keeps every reader, and defines a reader for each declared name |
| Associations.NewClassHasNoOptions | lib/active_record_base.rb:124-127 | a class without `belongs_to` declarations has an empty `assoc_options` |
| Associations.Constantize | lib/active_record_base.rb:332-334 | `model_class` is the declared class of that name; an unknown name is an error |
| Associations.ColumnsOf | lib/active_record_base.rb:219-228 | a class's columns are its table's columns; a missing table is an error |
| Associations.ReadBelongsTo | lib/active_record_base.rb:102-108 | an unknown target class is a NameError before anything is read; otherwise nil exactly when no target row's primary key equals the foreign key (always nil for a nil key), else the first such row |
| Associations.ReadHasMany | lib/active_record_base.rb:113-121 | the unloaded relation on the target table with criterion foreign key = owner's id |
| Associations.HasManyEmpty | lib/active_record_base.rb:113-121 | when no target row references the owner, or the owner has no id, the relation materialises to `[]` and equals `[]` |
| Associations.ReadHasOneThrough | lib/active_record_base.rb:132-150 | succeeds exactly when the through options, both classes, the source options, both tables and the joined columns all exist; then the first row of the join on `through.<source foreign key> = source.id` filtered by `through.id`; missing through or source options is NoMethodError, an unknown class a NameError |
| Associations.MatchOnId | lib/active_record_base.rb:107 | with unique ids, selecting on `id` gives the one matching row or nothing |
| Associations.Join | lib/active_record_base.rb:134-145 | every joined record is a source row, and no through row with that `id` gives an empty join |
| Associations.JoinOnId | lib/active_record_base.rb:134-145 | with unique through ids, the join is the source lookup of the one through row with that id |
| Associations.HasOneThroughComposes | lib/active_record_base.rb:129-151 | when the through primary key is `id`, `has_one_through` equals reading the through association and then the source association on its result (joined on `id`) |
| Associations.Call | lib/active_record_base.rb:97-151 | calling an undeclared association is NoMethodError; a has-many reader gives a relation, the others a single record or nil |
| FormKeys.DropTrailingEmpty | lib/controller_base.rb:204 | removes exactly the trailing empty fields: a prefix whose last field is nonempty |
| FormKeys.ParseKey | lib/controller_base.rb:203-205 | no resulting name contains a bracket, and the last one is never empty |
| FormKeys.BracketFreeKey | lib/controller_base.rb:203-205 | a key without brackets parses to itself alone; the empty key to nothing |
| FormKeys.ParseNest | lib/controller_base.rb:203-205 | `n0[n1][n2]…` parses back to its names, inner empty names included, when the last name is nonempty |
| FormParser.PathOf | lib/controller_base.rb:175-181 | the path is the parsed names as string keys, or the nil key when there are none |
| FormParser.Insert | lib/controller_base.rb:177-181 | storing one pair keeps every top-level key and adds the path's first key; the only error is stepping into a string |
| FormParser.InsertThenFollow | lib/controller_base.rb:177-181 | after storing a pair, its value is found at the end of its path |
| FormParser.InsertFrame | lib/controller_base.rb:177-181 | storing a pair changes nothing on a path that diverges from it |
| FormParser.InsertFails | lib/controller_base.rb:177-181 | storing fails exactly when a proper prefix of the path already holds a string |
| FormParser.EnclosingPathOverwrites | lib/controller_base.rb:177-181 | a string stored at an enclosing path hides everything that was below it |
| FormParser.InsertAllFrame | lib/controller_base.rb:171-184 | pairs on paths diverging from `q` leave what `q` leads to unchanged |
| FormParser.InsertAll | lib/controller_base.rb:171-184 | folding the pairs in order fails only by stepping into a string, and otherwise adds exactly each pair's first key at the top level |
| FormParser.ParseForm | lib/controller_base.rb:171-184 | no pairs give `{}`; a parsed form has one top-level key per distinct first path key |
| FormParser.EveryPairKept | lib/controller_base.rb:171-184 | every pair not followed by a pair on a related path is found at its path in the result |
| FormParser.ParsedPairs | lib/controller_base.rb:171-184 | the parsed form keeps every such pair, so siblings under a shared prefix are all kept |
| Chains.BuildChain | rails_base/bin/bottom_up_nick.rb:12-17 | the empty path gives the value itself; otherwise a hash with exactly the path's first key |
| Chains.ChainShape | rails_base/bin/bottom_up_nick.rb:12-17 | following the path reaches the value, and each step is a one-key hash, so the nesting depth is the path's length |
| Chains.Merge | rails_base/bin/bottom_up_nick.rb:19-21 | the keys are the union; a key of one side keeps its value; a shared key holds the merge of both values |
| Chains.Merger | rails_base/bin/bottom_up_nick.rb:19-21 | succeeds exactly when both sides are hashes whose shared keys merge in turn, and then is the deep merge |
| Chains.ChainsMergeable | rails_base/bin/bottom_up_nick.rb:19-21 | two chains ending in strings merge exactly when their paths diverge |
| Chains.ChainsDeepMerge | rails_base/bin/bottom_up_nick.rb:5-21 | merging chains with a shared prefix deep-merges: both values stay reachable along their own paths |
| Controller.LastCookie | lib/controller_base.rb:90-92 | the data of the last cookie with that name, none when no cookie has it |
| Nodes.JsonMap | lib/controller_base.rb:90-106 | `to_json` then `JSON.parse` on a hash: one string key per key text, every key string, each value converted in turn |
| Nodes.JsonStable | lib/controller_base.rb:90-106 | what JSON gives back is string-keyed at every depth, and a string-keyed value comes back unchanged |
| Controller.NewSession | lib/controller_base.rb:88-93 | the session is the hash of the last `_rails_lite_app` cookie, whatever comes before it; `{}` without one |
| Controller.SessionGet | lib/controller_base.rb:95-97 | `session[k]` is the stored value, nil when absent |
| Controller.SessionSet | lib/controller_base.rb:99-101 | after `session[k] = v`, `session[k]` is `v` and every earlier key survives |
| Controller.StoreSession | lib/controller_base.rb:105-108 | appends exactly one app cookie, which is then the last one and holds the session as JSON gives it back; the earlier cookies and the rest of the response are unchanged |
| Controller.SessionRoundTrip | lib/controller_base.rb:88-108 | the next request's session is the stored one through JSON: a value stored under a symbol is read back under its string, not its symbol; a string-keyed session comes back unchanged |
| Controller.AlreadyBuilt | lib/controller_base.rb:18-20 | whether the response was built; it starts false and only render and redirect set it |
| Controller.NewFlash | lib/controller_base.rb:114-120 | `now` starts empty; `later` is the hash of the last `later` cookie, whatever comes before it; `{}` without one |
| Controller.FlashGet | lib/controller_base.rb:122-124 | looks in `now` then `later` under the symbol, then `now` then `later` under the string, each case stated; nil only when all four miss |
| Controller.FlashSet | lib/controller_base.rb:126-128 | `flash[k] = v` writes `later` only |
| Controller.FlashSetNow | lib/controller_base.rb:135-137 | `flash.now[k] = v` writes `now` only |
| Controller.StoreFlash | lib/controller_base.rb:130-133 | appends exactly one `later` cookie, which is then the last one and holds `later` as JSON gives it back; nothing else changes |
| Controller.FlashSetThenGet | lib/controller_base.rb:114-133 | a value set with `flash[k]` reads back in this request unless `now` shadows it, and in the next request as JSON gives it back |
| Controller.FlashNowIsDropped | lib/controller_base.rb:114-137 | `flash.now` wins in this request; the next request sees only `later`, through JSON, in full |
| Controller.ParseSource | lib/controller_base.rb:150-151 | an absent query string or body contributes nothing; a present one is parsed |
| Controller.NewParams | lib/controller_base.rb:148-152 | the keys are the union of route params, query and body; a key takes the body's value, else the query's, else the route's |
| Controller.ParamsGet | lib/controller_base.rb:154-156 | finds a value stored under the string or the symbol form of the name, the string form first |
| Controller.RouteParamFound | lib/controller_base.rb:148-156 | a symbol-keyed route param is found by name when no parsed source mentions that name |
| Controller.NewController | lib/controller_base.rb:72-76 | a new controller has not built its response and holds the request's params, session and flash |
| Controller.PersistReadBack | lib/controller_base.rb:31-33 | the cookies a build appends give the next request this session and this `later` flash, through JSON, and keep the earlier cookies |
| Controller.RenderContent | lib/controller_base.rb:39-50 | raises exactly when the response is built; otherwise sets body and content type, marks it built, appends exactly the session cookie and then the `later` cookie, and changes nothing else |
| Controller.RedirectTo | lib/controller_base.rb:23-34 | raises exactly when the response is built; otherwise sets location and status 302, marks it built, appends exactly the session cookie and then the `later` cookie, and changes nothing else |
| Controller.BuiltAtMostOnce | lib/controller_base.rb:18-50 | from an unbuilt controller a run of render/redirect calls completes exactly when it has at most one call; from a built one, only when it is empty |
| Controller.InvokeAction | lib/controller_base.rb:54-82 | fails exactly when the action does; when the action left the response unbuilt, the result is exactly `render_content` of the default view as html, with its cookies, status and location; the result is always built |
| Routing.Downcase | lib/controller_base.rb:217 | the request method downcased character by character, with the same length |
| Routing.DowncaseIdempotent | lib/controller_base.rb:217 | downcasing twice is downcasing once; lower-case text is unchanged |
| Routing.Matches | lib/controller_base.rb:216-218 | a matching route's pattern matches the path and its method is all lower case, the request method downcased |
| Routing.AddRoute | lib/controller_base.rb:243-245 | one more route, appended after the unchanged earlier ones |
| Routing.VerbName | lib/controller_base.rb:256-260 | the helper method names are already lower case |
| Routing.Draw | lib/controller_base.rb:256-260 | `get`/`post`/`put`/`delete` add a route with that method |
| Routing.DrawnRouteMatches | lib/controller_base.rb:216-260 | a drawn route matches a request on its pattern whatever the letter case of the request method |
| Routing.Match | lib/controller_base.rb:263-270 | none exactly when no route matches; otherwise the first matching route in insertion order |
| Routing.MatchAfterAdd | lib/controller_base.rb:243-270 | adding a route never changes an existing match; an unmatched request matches the new route exactly when it matches it |
| Routing.RouteParams | lib/controller_base.rb:222-230 | each named capture becomes a string-keyed route param holding the captured text |
| Routing.Dispatch | lib/controller_base.rb:222-232 | builds the controller with the named captures as params and is then exactly `invoke_action` of the route's action on it; a params error is passed on |
| Routing.RouteAddsToParams | lib/controller_base.rb:222-231 | a named capture reaches the action's params under its name unless the query or the body gives that name |
| Routing.Run | lib/controller_base.rb:273-279 | with no matching route the response gets status 404 and nothing else; otherwise it is the matched route's response |

## Left out

- `DBConnection` (lib/active_record_base.rb:12-57): the shell commands, the SQLite driver and statement logging. Its effect is the abstract store; `last_insert_row_id` is the rowid rule in `Records.FreshId`.
- Column reflection through `execute2` and the `finalize!` metaprogramming: a class's columns are its table's columns (`Associations.ColumnsOf`), and the accessors are `Records.Read` and `Records.Write`.
- `Relation#method_missing` forwards any method the cached array answers; only `length`, `[]` and `first` are modelled.
- `includes` and `has_many_through` are broken as written and not modelled: `includes` calls `other_key`/`self_key`, which options do not define, and `has_many_through` calls `tableize` on a class.
- Column names are strings; the source turns them into symbols. The two are treated as the same name.
- SQLite type affinity is not modelled. An integer id and a text id that looks like a number are different values, and a text id on insert is a datatype error.
- Records.Find: `find` interpolates its argument into the SQL text; the model takes an integer id only.
- SqlText: whitespace in the SQL text is normalised to single spaces. The statement builders state placeholder counts and binds only; the store transitions give the statements' effect.
- Query.Load: `load` builds records through `Object.const_get` on the camelcased, singularized table name; the model builds them straight from the rows, as `Records.FromRow`.
- The ActiveSupport inflections are arbitrary functions, and `constantize` is a catalog lookup.
- WEBrick requests and responses and cookie encoding: a cookie carries its decoded hash. JSON is modelled only as far as it changes a hash: every key becomes the string `key.to_s` (`Nodes.JsonMap`).
- Nodes.JsonMap: when two keys of one hash have the same text (`:a` and `"a"`), Ruby's `JSON.parse` keeps the value of the one inserted last; the model keeps the symbol's value, else the string's, else nil's, because a `map` has no insertion order.
- `render` reads an ERB template from a file and evaluates it; its output is the `template` function given to `Controller.InvokeAction`.
- `URI::decode_www_form`: the form parser takes decoded pairs.
- The session and flash are created when the controller is, not on first use; both read the same request, so every read sees the same values.
- FormParser.Insert: when a path steps into a string value, Ruby indexes the string or writes into it in place (or raises `IndexError`); the model reports an error in every such case.
- Records.Insert: on a table without an `id` column, Ruby writes the row before `self.id =` raises; the model reports the NoMethodError and does not keep the written row.
- Records.Insert: SQLite ids are 64-bit and a NULL-keyed insert once the largest id is the maximum picks a random unused id; ids here are unbounded, so the fresh id is always the largest plus one.
- Query.Equals: records compare by value in the model. SQLObject defines no `==`, so Ruby's `Array#==` compares its records by identity, and a nonempty freshly loaded relation never equals an array of records built elsewhere. The model agrees with the program only when the other operand is `[]`, the form the program's tests use (`Query.NoMatchEqualsEmpty`).
- Values in the session, the flash and the route params are strings or nested hashes (`Nodes.Node`); integers, arrays and other Ruby values stored there are not modelled.
- Chains.Merger: Ruby raises NoMethodError when the receiver of `merge` is a string and TypeError when its argument is; the model reports both as one error, `MergeOfNonHash`.
- Routing.Downcase: only ASCII letters are downcased; Ruby also downcases other Unicode letters.
- Route patterns and named captures are abstract (`Routing.Matcher`); `draw`'s `instance_eval` is plain calls to `Routing.Draw`.
- `parse_www_encoded_form` in rails_base/bin/bottom_up_nick.rb:1-10 uses an undefined `first` and a global `@params`; only `build_chain` and `merger` are modelled.
- A test expects one cookie after `render_content`, but rendering stores both the session and the flash cookie; the test's own comment says so, and the model follows the code.

=== FILE: associations.dfy ===
/**
 * `Associatable` and the association options: per-class declarations of
 * belongs-to, has-many and has-one-through, and the readers they define,
 * evaluated against the store.
 */
module Associations {
  import opened Wrappers
  import opened Records
  import opened Query

  /**
   * The ActiveSupport inflections the source calls. Their behaviour is not
   * part of this model, so they are given as arbitrary functions.
   */
  datatype Inflector = Inflector(
    underscore: string -> string,
    pluralize: string -> string,
    singularize: string -> string,
    camelcase: string -> string)

  /** `AssocOptions`: the keys and target class name of one association. */
  datatype AssocOptions = AssocOptions(foreignKey: Column, primaryKey: Column, className: string)

  /** The options hash a declaration passes; a missing (or nil) entry is None. */
  datatype Overrides = Overrides(foreignKey: Option<Column>, primaryKey: Option<Column>, className: Option<string>)

  /** `option || default`. */
  function OrElse<T>(o: Option<T>, default: T): (r: T)
    ensures o.Some? ==> r == o.value
    ensures o.None? ==> r == default
  {
    if o.Some? then o.value else default
  }

  /**
   * `BelongsToOptions.new(name, options)`: foreign key `<name>_id`, primary
   * key `id` and class `camelcase(name)` unless the options say otherwise.
   */
  function BelongsToOptions(infl: Inflector, name: string, o: Overrides): (opts: AssocOptions)
    ensures opts.foreignKey == OrElse(o.foreignKey, name + "_id")
    ensures opts.primaryKey == OrElse(o.primaryKey, "id")
    ensures opts.className == OrElse(o.className, infl.camelcase(name))
  {
    AssocOptions(
      OrElse(o.foreignKey, name + "_id"),
      OrElse(o.primaryKey, "id"),
      OrElse(o.className, infl.camelcase(name)))
  }

  /**
   * `HasManyOptions.new(name, owner, options)`: foreign key
   * `<underscore(owner)>_id`, primary key `id` and class
   * `camelcase(singularize(name))` unless the options say otherwise.
   */
  function HasManyOptions(infl: Inflector, name: string, owner: string, o: Overrides): (opts: AssocOptions)
    ensures opts.foreignKey == OrElse(o.foreignKey, infl.underscore(owner) + "_id")
    ensures opts.primaryKey == OrElse(o.primaryKey, "id")
    ensures opts.className == OrElse(o.className, infl.camelcase(infl.singularize(name)))
  {
    AssocOptions(
      OrElse(o.foreignKey, infl.underscore(owner) + "_id"),
      OrElse(o.primaryKey, "id"),
      OrElse(o.className, infl.camelcase(infl.singularize(name))))
  }

  /**
   * Explicit options always win: with all three given, both kinds of
   * options are exactly the given ones, whatever the names and inflections.
   */
  lemma ExplicitOptionsWin(infl: Inflector, name: string, owner: string, fk: Column, pk: Column, cls: string)
    ensures var o := Overrides(Some(fk), Some(pk), Some(cls));
      && BelongsToOptions(infl, name, o) == AssocOptions(fk, pk, cls)
      && HasManyOptions(infl, name, owner, o) == AssocOptions(fk, pk, cls)
  {
  }

  /** A method an association declaration defines on the class. */
  datatype Reader =
    | BelongsToReader(options: AssocOptions)
    | HasManyReader(options: AssocOptions)
    | HasOneThroughReader(through: Option<AssocOptions>, sourceName: string)

  /**
   * A record class: its name, the table name set explicitly (if any), its
   * own `assoc_options` registry, and the association readers it defines.
   */
  datatype ModelClass = ModelClass(
    name: string,
    tableOverride: Option<string>,
    assocOptions: map<string, AssocOptions>,
    readers: map<string, Reader>)

  /** A freshly declared subclass of `SQLObject`: no table override, `assoc_options` is `{}`. */
  function Define(name: string): (c: ModelClass)
    ensures c.name == name && c.tableOverride.None?
    ensures c.assocOptions == map[] && c.readers == map[]
  {
    ModelClass(name, None, map[], map[])
  }

  /** `table_name=`. */
  function SetTableName(c: ModelClass, t: string): (c': ModelClass)
    ensures c' == c.(tableOverride := Some(t))
  {
    c.(tableOverride := Some(t))
  }

  /** `table_name`: the explicit name, else the pluralized underscored class name. */
  function TableName(infl: Inflector, c: ModelClass): (t: string)
    ensures c.tableOverride.Some? ==> t == c.tableOverride.value
    ensures c.tableOverride.None? ==> t == infl.pluralize(infl.underscore(c.name))
  {
    match c.tableOverride
    case Some(t) => t
    case None => infl.pluralize(infl.underscore(c.name))
  }

  /** An explicitly set table name is the one `table_name` reports. */
  lemma TableNameSet(infl: Inflector, c: ModelClass, t: string)
    ensures TableName(infl, SetTableName(c, t)) == t
  {
  }

  /** `belongs_to`: registers its options under the name and defines the reader. */
  function BelongsTo(infl: Inflector, c: ModelClass, name: string, o: Overrides): (c': ModelClass)
    ensures c'.name == c.name && c'.tableOverride == c.tableOverride
    ensures c'.assocOptions == c.assocOptions[name := BelongsToOptions(infl, name, o)]
    ensures c'.readers == c.readers[name := BelongsToReader(BelongsToOptions(infl, name, o))]
  {
    var opts := BelongsToOptions(infl, name, o);
    c.(assocOptions := c.assocOptions[name := opts], readers := c.readers[name := BelongsToReader(opts)])
  }

  /** `has_many`: defines the reader but leaves `assoc_options` as it is. */
  function HasMany(infl: Inflector, c: ModelClass, name: string, o: Overrides): (c': ModelClass)
    ensures c'.name == c.name && c'.tableOverride == c.tableOverride
    ensures c'.assocOptions == c.assocOptions
    ensures c'.readers == c.readers[name := HasManyReader(HasManyOptions(infl, name, c.name, o))]
  {
    c.(readers := c.readers[name := HasManyReader(HasManyOptions(infl, name, c.name, o))])
  }

  /**
   * `has_one_through`: captures the through options registered at the
   * moment of declaration (nil when none) and defines the reader.
   */
  function HasOneThrough(c: ModelClass, name: string, throughName: string, sourceName: string): (c': ModelClass)
    ensures c'.name == c.name && c'.tableOverride == c.tableOverride
    ensures c'.assocOptions == c.assocOptions
    ensures name in c'.readers && c'.readers[name].HasOneThroughReader?
    ensures c'.readers[name].sourceName == sourceName
    ensures c'.readers[name].through.Some? <==> throughName in c.assocOptions
    ensures throughName in c.assocOptions ==> c'.readers[name].through == Some(c.assocOptions[throughName])
    ensures forall n :: n in c.readers && n != name ==> n in c'.readers && c'.readers[n] == c.readers[n]
  {
    var through := if throughName in c.assocOptions then Some(c.assocOptions[throughName]) else None;
    c.(readers := c.readers[name := HasOneThroughReader(through, sourceName)])
  }

  /** One association declaration in a class body. */
  datatype Declaration =
    | DeclareBelongsTo(name: string, o: Overrides)
    | DeclareHasMany(name: string, o: Overrides)
    | DeclareHasOneThrough(name: string, throughName: string, sourceName: string)

  /** A class body's declarations, applied in order. */
  function DeclareAll(infl: Inflector, c: ModelClass, ds: seq<Declaration>): (r: ModelClass)
    ensures r.name == c.name && r.tableOverride == c.tableOverride
    ensures c.readers.Keys <= r.readers.Keys
    ensures forall i :: 0 <= i < |ds| ==> ds[i].name in r.readers
    decreases |ds|
  {
    if |ds| == 0 then c
    else
      var c' := match ds[0]
        case DeclareBelongsTo(n, o) => BelongsTo(infl, c, n, o)
        case DeclareHasMany(n, o) => HasMany(infl, c, n, o)
        case DeclareHasOneThrough(n, t, s) => HasOneThrough(c, n, t, s);
      assert ds[0].name in c'.readers;
      assert forall i :: 1 <= i < |ds| ==> ds[i] == ds[1..][i - 1];
      DeclareAll(infl, c', ds[1..])
  }

  /** The names a class body declares with `belongs_to`. */
  function BelongsToNames(ds: seq<Declaration>): set<string>
  {
    set i | 0 <= i < |ds| && ds[i].DeclareBelongsTo? :: ds[i].name
  }

  /**
   * Starting from a new class, `assoc_options` ends up holding exactly the
   * names declared with `belongs_to`: `has_many` and `has_one_through`
   * never register.
   */
  lemma {:induction false} OnlyBelongsToRegisters(infl: Inflector, c: ModelClass, ds: seq<Declaration>)
    ensures DeclareAll(infl, c, ds).assocOptions.Keys == c.assocOptions.Keys + BelongsToNames(ds)
    decreases |ds|
  {
    if |ds| != 0 {
      var c' := match ds[0]
        case DeclareBelongsTo(n, o) => BelongsTo(infl, c, n, o)
        case DeclareHasMany(n, o) => HasMany(infl, c, n, o)
        case DeclareHasOneThrough(n, t, s) => HasOneThrough(c, n, t, s);
      OnlyBelongsToRegisters(infl, c', ds[1..]);
      BelongsToNamesCons(ds);
    }
  }

  /** The `belongs_to` names of a body: its first declaration's, if any, and the rest's. */
  lemma BelongsToNamesCons(ds: seq<Declaration>)
    requires |ds| != 0
    ensures BelongsToNames(ds) ==
      (if ds[0].DeclareBelongsTo? then {ds[0].name} else {}) + BelongsToNames(ds[1..])
  {
    forall n | n in BelongsToNames(ds)
      ensures n in (if ds[0].DeclareBelongsTo? then {ds[0].name} else {}) + BelongsToNames(ds[1..])
    {
      var i :| 0 <= i < |ds| && ds[i].DeclareBelongsTo? && ds[i].name == n;
      if i > 0 { assert ds[1..][i - 1] == ds[i]; }
    }
    forall n | n in BelongsToNames(ds[1..]) ensures n in BelongsToNames(ds) {
      var i :| 0 <= i < |ds[1..]| && ds[1..][i].DeclareBelongsTo? && ds[1..][i].name == n;
      assert ds[i + 1] == ds[1..][i];
    }
  }

  /** A new class's `assoc_options` is `{}`, whatever its name. */
  lemma NewClassHasNoOptions(infl: Inflector, name: string, ds: seq<Declaration>)
    requires forall i :: 0 <= i < |ds| ==> !ds[i].DeclareBelongsTo?
    ensures DeclareAll(infl, Define(name), ds).assocOptions == map[]
  {
    OnlyBelongsToRegisters(infl, Define(name), ds);
  }

  // ---------------------------------------------------------------------------
  // Evaluating the readers

  /** The declared classes by name. */
  type Catalog = map<string, ModelClass>

  /** `class_name.constantize`: the declared class of that name, or NameError. */
  function Constantize(catalog: Catalog, className: string): (r: Result<ModelClass>)
    ensures r.Success? <==> className in catalog
    ensures r.Success? ==> r.value == catalog[className]
  {
    if className in catalog then Success(catalog[className]) else Failure(UninitializedConstant(className))
  }

  /** `columns`: reflected from the class's table. */
  function ColumnsOf(infl: Inflector, db: Db, c: ModelClass): (r: Result<seq<Column>>)
    ensures r.Success? <==> TableName(infl, c) in db
    ensures r.Success? ==> r.value == db[TableName(infl, c)].columns
  {
    var t := TableName(infl, c);
    if t in db then Success(db[t].columns) else Failure(Driver("no such table: " + t))
  }

  /**
   * The `belongs_to` reader: `target.where(primary_key => self.<foreign_key>).first`,
   * that is, the first target row whose primary key equals the foreign key,
   * or nil when none does (always nil for a nil foreign key).
   */
  function ReadBelongsTo(infl: Inflector, db: Db, catalog: Catalog, c: ModelClass, rec: Record, opts: AssocOptions)
    : (r: Result<Option<Record>>)
    ensures r.Success? <==>
      && TableName(infl, c) in db
      && opts.foreignKey in db[TableName(infl, c)].columns
      && opts.className in catalog
      && TableName(infl, catalog[opts.className]) in db
      && opts.primaryKey in db[TableName(infl, catalog[opts.className])].columns
    ensures r.Success? ==>
      var v := Attr(rec, opts.foreignKey);
      var rows := db[TableName(infl, catalog[opts.className])].rows;
      && (r.value.None? <==> forall i :: 0 <= i < |rows| ==> !Holds(rows[i], opts.primaryKey, v))
      && (r.value.Some? ==>
            exists i :: && 0 <= i < |rows|
                        && Holds(rows[i], opts.primaryKey, v)
                        && r.value.value == FromRow(rows[i])
                        && forall j :: 0 <= j < i ==> !Holds(rows[j], opts.primaryKey, v))
    ensures r.Success? ==>
      r.value == FirstOf(Matching(db[TableName(infl, catalog[opts.className])].rows,
                                  [(opts.primaryKey, Attr(rec, opts.foreignKey))]))
    ensures opts.className !in catalog ==> r == Failure(UninitializedConstant(opts.className))
  {
    var target :- Constantize(catalog, opts.className);
    var columns :- ColumnsOf(infl, db, c);
    var v :- Read(columns, rec, opts.foreignKey);
    var rel := Start(TableName(infl, target), [(opts.primaryKey, v)]);
    assert rel.criteria[0] == (opts.primaryKey, v);
    var found :- First(db, rel);
    SingleSatisfies(opts.primaryKey, v);
    Success(found.0)
  }

  /**
   * The `has_many` reader: the unloaded relation
   * `target.where(foreign_key => self.id)`.
   */
  function ReadHasMany(infl: Inflector, db: Db, catalog: Catalog, c: ModelClass, rec: Record, opts: AssocOptions)
    : (r: Result<Relation>)
    ensures r.Success? <==>
      && TableName(infl, c) in db
      && "id" in db[TableName(infl, c)].columns
      && opts.className in catalog
    ensures r.Success? ==>
      r.value == Start(TableName(infl, catalog[opts.className]), [(opts.foreignKey, Attr(rec, "id"))])
  {
    var columns :- ColumnsOf(infl, db, c);
    var id :- Read(columns, rec, "id");
    var target :- Constantize(catalog, opts.className);
    Success(Start(TableName(infl, target), [(opts.foreignKey, id)]))
  }

  /**
   * A has-many relation holds exactly the target rows whose foreign key is
   * the owner's id; with none it equals `[]`, as it always does for an owner
   * that was never saved.
   */
  lemma HasManyEmpty(infl: Inflector, db: Db, catalog: Catalog, c: ModelClass, rec: Record, opts: AssocOptions)
    requires ReadHasMany(infl, db, catalog, c, rec, opts).Success?
    requires TableName(infl, catalog[opts.className]) in db
    requires opts.foreignKey in db[TableName(infl, catalog[opts.className])].columns
    requires Attr(rec, "id").Nil? ||
      forall row :: row in db[TableName(infl, catalog[opts.className])].rows ==>
        opts.foreignKey !in row || row[opts.foreignKey] != Attr(rec, "id")
    ensures var rel := ReadHasMany(infl, db, catalog, c, rec, opts).value;
      Load(db, rel) == Success([]) && Equals(db, rel, []) == Success((true, rel.(cache := Some([]))))
  {
    var rel := ReadHasMany(infl, db, catalog, c, rec, opts).value;
    forall row | row in db[rel.tableName].rows ensures !Satisfies(row, rel.criteria) {
      assert rel.criteria[0] == (opts.foreignKey, Attr(rec, "id"));
    }
  }

  /** The first element of a result, as `first` gives it. */
  function FirstOf(rs: seq<Record>): (r: Option<Record>)
    ensures r.None? <==> rs == []
    ensures r.Some? ==> r.value == rs[0]
  {
    Index(rs, 0)
  }

  /**
   * The join of the has-one-through query, in nested-loop order: for each
   * through row whose `id` is `v`, the source rows whose `id` equals that
   * row's source foreign key.
   */
  function Join(throughRows: seq<Row>, sourceRows: seq<Row>, sourceFk: Column, v: Value): (r: seq<Record>)
    ensures forall x :: x in r ==> exists i :: 0 <= i < |sourceRows| && x == FromRow(sourceRows[i])
    ensures (forall i :: 0 <= i < |throughRows| ==> !Holds(throughRows[i], "id", v)) ==> r == []
    decreases |throughRows|
  {
    if |throughRows| == 0 then []
    else
      var t := throughRows[0];
      (if Holds(t, "id", v) && sourceFk in t then Matching(sourceRows, [("id", t[sourceFk])]) else [])
      + Join(throughRows[1..], sourceRows, sourceFk, v)
  }

  /**
   * The `has_one_through` reader: looks up the source options on the
   * through class at call time, then runs one join that matches
   * `through.<source foreign key> = source.id` and filters `through.id`
   * by the record's through foreign key, returning the first row or nil.
   */
  function ReadHasOneThrough(
    infl: Inflector, db: Db, catalog: Catalog, c: ModelClass, rec: Record,
    through: Option<AssocOptions>, sourceName: string): (r: Result<Option<Record>>)
    ensures r.Success? <==> HasOneThroughRuns(infl, db, catalog, c, through, sourceName)
    ensures r.Success? ==>
      var source := catalog[through.value.className].assocOptions[sourceName];
      var tt := TableName(infl, catalog[through.value.className]);
      var st := TableName(infl, catalog[source.className]);
      r.value == FirstOf(Join(db[tt].rows, db[st].rows, source.foreignKey, Attr(rec, through.value.foreignKey)))
    ensures through.None? ==> r == Failure(NoMethod("model_class"))
    ensures through.Some? && through.value.className !in catalog ==>
      r == Failure(UninitializedConstant(through.value.className))
    ensures (through.Some? && through.value.className in catalog &&
             sourceName !in catalog[through.value.className].assocOptions) ==> r == Failure(NoMethod("model_class"))
  {
    if through.None? then Failure(NoMethod("model_class"))
    else
      var throughClass :- Constantize(catalog, through.value.className);
      if sourceName !in throughClass.assocOptions then Failure(NoMethod("model_class"))
      else
        var source := throughClass.assocOptions[sourceName];
        var sourceClass :- Constantize(catalog, source.className);
        var tt := TableName(infl, throughClass);
        var st := TableName(infl, sourceClass);
        var columns :- ColumnsOf(infl, db, c);
        var v :- Read(columns, rec, through.value.foreignKey);
        if tt !in db || st !in db then Failure(Driver("no such table"))
        else if source.foreignKey !in db[tt].columns || "id" !in db[tt].columns || "id" !in db[st].columns then
          Failure(Driver("no such column"))
        else Success(FirstOf(Join(db[tt].rows, db[st].rows, source.foreignKey, v)))
  }

  /**
   * When the `has_one_through` reader completes: the through association
   * was declared, both classes are known, the through class declares the
   * source, the caller's class has the through foreign key as a column,
   * and the join's tables and columns exist.
   */
  predicate HasOneThroughRuns(
    infl: Inflector, db: Db, catalog: Catalog, c: ModelClass, through: Option<AssocOptions>, sourceName: string)
  {
    && through.Some?
    && through.value.className in catalog
    && sourceName in catalog[through.value.className].assocOptions
    && var source := catalog[through.value.className].assocOptions[sourceName];
    && source.className in catalog
    && var tt := TableName(infl, catalog[through.value.className]);
    && var st := TableName(infl, catalog[source.className]);
    && TableName(infl, c) in db
    && through.value.foreignKey in db[TableName(infl, c)].columns
    && tt in db && st in db
    && source.foreignKey in db[tt].columns
    && "id" in db[tt].columns
    && "id" in db[st].columns
  }

  /** The first row whose `id` is `v`. */
  function FindRow(rows: seq<Row>, v: Value): (r: Option<Row>)
    ensures r.None? <==> forall i :: 0 <= i < |rows| ==> !Holds(rows[i], "id", v)
    ensures r.Some? ==> r.value in rows && Holds(r.value, "id", v)
  {
    if |rows| == 0 then None
    else if Holds(rows[0], "id", v) then Some(rows[0])
    else
      assert forall i :: 1 <= i < |rows| ==> rows[i] == rows[1..][i - 1];
      FindRow(rows[1..], v)
  }

  predicate UniqueIds(rows: seq<Row>)
  {
    forall i, j :: 0 <= i < j < |rows| ==> IdOf(rows[i]) != IdOf(rows[j])
  }

  /** With unique ids, selecting on `id` gives the one row with that id, or nothing. */
  lemma {:induction false} MatchOnId(rows: seq<Row>, v: Value)
    requires UniqueIds(rows)
    ensures Matching(rows, [("id", v)]) == match FindRow(rows, v) case None => [] case Some(row) => [FromRow(row)]
  {
    var c := [("id", v)];
    SingleSatisfies("id", v);
    if |rows| != 0 {
      MatchOnId(rows[1..], v);
      if Holds(rows[0], "id", v) {
        forall i | 0 <= i < |rows[1..]| ensures !Satisfies(rows[1..][i], c) {
          assert rows[1..][i] == rows[i + 1];
          assert IdOf(rows[0]) != IdOf(rows[i + 1]);
        }
      }
    }
  }

  /** No through row with `id` `v`: the join is empty. */
  lemma {:induction false} JoinNone(throughRows: seq<Row>, sourceRows: seq<Row>, fk: Column, v: Value)
    requires forall i :: 0 <= i < |throughRows| ==> !Holds(throughRows[i], "id", v)
    ensures Join(throughRows, sourceRows, fk, v) == []
  {
    if |throughRows| != 0 {
      assert forall i :: 0 <= i < |throughRows[1..]| ==> throughRows[1..][i] == throughRows[i + 1];
      JoinNone(throughRows[1..], sourceRows, fk, v);
    }
  }

  /** With unique through ids, the join is the source lookup of the one through row. */
  lemma {:induction false} JoinOnId(throughRows: seq<Row>, sourceRows: seq<Row>, fk: Column, v: Value)
    requires UniqueIds(throughRows)
    ensures Join(throughRows, sourceRows, fk, v) ==
      match FindRow(throughRows, v)
      case None => []
      case Some(t) => if fk in t then Matching(sourceRows, [("id", t[fk])]) else []
  {
    if |throughRows| != 0 {
      var t := throughRows[0];
      if Holds(t, "id", v) {
        forall i | 0 <= i < |throughRows[1..]| ensures !Holds(throughRows[1..][i], "id", v) {
          assert throughRows[1..][i] == throughRows[i + 1];
          assert IdOf(t) != IdOf(throughRows[i + 1]);
        }
        JoinNone(throughRows[1..], sourceRows, fk, v);
      } else {
        JoinOnId(throughRows[1..], sourceRows, fk, v);
      }
    }
  }

  /**
   * `has_one_through` composes two belongs-to lookups: when the through
   * association's primary key is `id` and the through table is valid, the
   * joined query returns what reading the through association and then the
   * source association on its result returns (nil when the first is nil).
   * The source side always joins on `id`, whatever its primary key says.
   */
  lemma HasOneThroughComposes(
    infl: Inflector, db: Db, catalog: Catalog, c: ModelClass, rec: Record,
    through: AssocOptions, sourceName: string)
    requires through.primaryKey == "id"
    requires ReadBelongsTo(infl, db, catalog, c, rec, through).Success?
    requires ReadHasOneThrough(infl, db, catalog, c, rec, Some(through), sourceName).Success?
    requires Valid(db[TableName(infl, catalog[through.className])])
    ensures var throughClass := catalog[through.className];
      var source := throughClass.assocOptions[sourceName];
      ReadHasOneThrough(infl, db, catalog, c, rec, Some(through), sourceName) ==
        match ReadBelongsTo(infl, db, catalog, c, rec, through).value
        case None => Success(None)
        case Some(mid) => ReadBelongsTo(infl, db, catalog, throughClass, mid, source.(primaryKey := "id"))
  {
    var throughClass := catalog[through.className];
    var source := throughClass.assocOptions[sourceName];
    var T := db[TableName(infl, throughClass)];
    var S := db[TableName(infl, catalog[source.className])];
    var v := Attr(rec, through.foreignKey);
    assert UniqueIds(T.rows);
    JoinOnId(T.rows, S.rows, source.foreignKey, v);
    MatchOnId(T.rows, v);
    match FindRow(T.rows, v)
    case None =>
    case Some(t) =>
      assert source.foreignKey in t by {
        var k :| 0 <= k < |T.rows| && T.rows[k] == t;
        assert RowFits(T.columns, T.rows[k]);
      }
      assert Attr(FromRow(t), source.foreignKey) == t[source.foreignKey];
  }

  /** What an association reader returns: one record (or nil), or a relation. */
  datatype Associated = One(record: Option<Record>) | Many(relation: Relation)

  /** Sending the association name to a record of the class. */
  function Call(infl: Inflector, db: Db, catalog: Catalog, c: ModelClass, rec: Record, name: string)
    : (r: Result<Associated>)
    ensures name !in c.readers ==> r == Failure(NoMethod(name))
    ensures r.Success? ==> name in c.readers && (r.value.Many? <==> c.readers[name].HasManyReader?)
    ensures name in c.readers && c.readers[name].BelongsToReader? ==>
      r == (match ReadBelongsTo(infl, db, catalog, c, rec, c.readers[name].options)
            case Success(x) => Success(One(x))
            case Failure(e) => Failure(e))
  {
    if name !in c.readers then Failure(NoMethod(name))
    else
      match c.readers[name]
      case BelongsToReader(opts) =>
        var x :- ReadBelongsTo(infl, db, catalog, c, rec, opts);
        Success(One(x))
      case HasManyReader(opts) =>
        var rel :- ReadHasMany(infl, db, catalog, c, rec, opts);
        Success(Many(rel))
      case HasOneThroughReader(through, sourceName) =>
        var x :- ReadHasOneThrough(infl, db, catalog, c, rec, through, sourceName);
        Success(One(x))
  }
}

=== FILE: chains.dfy ===
/**
 * `build_chain` and `merger`: a key path turned into nested one-key hashes,
 * and a deep merge that combines the values of shared keys recursively.
 */
module Chains {
  import opened Wrappers
  import opened Nodes

  /** `build_chain(arr, val)`: `val` itself for an empty path, else `{arr.first => build_chain(rest, val)}`. */
  function BuildChain(path: seq<Key>, v: Node): (n: Node)
    ensures |path| == 0 ==> n == v
    ensures |path| > 0 ==> n.Hash? && n.entries.Keys == {path[0]}
    decreases |path|
  {
    if |path| == 0 then v else Hash(map[path[0] := BuildChain(path[1..], v)])
  }

  /**
   * Following the path through the chain reaches the value, and every step
   * on the way is a hash with the single next key: the nesting is exactly
   * as deep as the path is long.
   */
  lemma {:induction false} ChainShape(path: seq<Key>, v: Node)
    ensures Follow(BuildChain(path, v), path) == Some(v)
    ensures forall i :: 0 <= i < |path| ==>
      Follow(BuildChain(path, v), path[..i]) == Some(Hash(map[path[i] := BuildChain(path[i + 1..], v)]))
    decreases |path|
  {
    if |path| > 0 {
      ChainShape(path[1..], v);
      forall i | 0 <= i < |path|
        ensures Follow(BuildChain(path, v), path[..i]) == Some(Hash(map[path[i] := BuildChain(path[i + 1..], v)]))
      {
        if i > 0 {
          assert path[..i][1..] == path[1..][..i - 1];
          assert path[1..][i - 1] == path[i] && path[1..][i..] == path[i + 1..];
        }
      }
    }
  }

  /**
   * When `merger(a, b)` returns without raising: both are hashes, and every
   * shared key's two values can be merged in turn.
   */
  predicate Mergeable(a: Node, b: Node)
  {
    && a.Hash? && b.Hash?
    && forall k :: k in a.entries && k in b.entries ==> Mergeable(a.entries[k], b.entries[k])
  }

  /** `v1.merge(v2) { |k, a, b| merger(a, b) }` on mergeable values. */
  function Merge(a: Node, b: Node): (m: Node)
    requires Mergeable(a, b)
    ensures m.Hash? && m.entries.Keys == a.entries.Keys + b.entries.Keys
    ensures forall k :: k in a.entries && k !in b.entries ==> m.entries[k] == a.entries[k]
    ensures forall k :: k !in a.entries && k in b.entries ==> m.entries[k] == b.entries[k]
    ensures forall k :: k in a.entries && k in b.entries ==> m.entries[k] == Merge(a.entries[k], b.entries[k])
  {
    Hash(map k | k in a.entries.Keys + b.entries.Keys ::
      if k in a.entries && k in b.entries then Merge(a.entries[k], b.entries[k])
      else if k in b.entries then b.entries[k]
      else a.entries[k])
  }

  /**
   * `merger(v1, v2)`: the deep merge, or an error when a string would be
   * merged: NoMethodError when the receiver is a string, TypeError when
   * the argument is.
   */
  function Merger(a: Node, b: Node): (r: Result<Node>)
    ensures r.Success? <==> Mergeable(a, b)
    ensures r.Success? ==> r.value == Merge(a, b)
  {
    if Mergeable(a, b) then Success(Merge(a, b)) else Failure(MergeOfNonHash)
  }

  /**
   * Two chains ending in strings merge exactly when their paths part
   * somewhere; merging a path with its own prefix or extension would merge
   * a string.
   */
  lemma {:induction false} ChainsMergeable(p: seq<Key>, x: string, q: seq<Key>, y: string)
    ensures Mergeable(BuildChain(p, Leaf(x)), BuildChain(q, Leaf(y))) <==> Diverges(p, q)
    decreases |p|
  {
    if |p| > 0 && |q| > 0 && p[0] == q[0] {
      ChainsMergeable(p[1..], x, q[1..], y);
    }
  }

  /**
   * Merging two chains that share a prefix merges deep instead of
   * overwriting: both values stay reachable along their own paths.
   */
  lemma {:induction false} ChainsDeepMerge(p: seq<Key>, x: string, q: seq<Key>, y: string)
    requires Diverges(p, q)
    ensures Merger(BuildChain(p, Leaf(x)), BuildChain(q, Leaf(y))).Success?
    ensures var m := Merger(BuildChain(p, Leaf(x)), BuildChain(q, Leaf(y))).value;
      Follow(m, p) == Some(Leaf(x)) && Follow(m, q) == Some(Leaf(y))
    decreases |p|
  {
    ChainsMergeable(p, x, q, y);
    ChainShape(p, Leaf(x));
    ChainShape(q, Leaf(y));
    if p[0] == q[0] {
      ChainsDeepMerge(p[1..], x, q[1..], y);
    }
  }
}

=== FILE: controller.dfy ===
/**
 * `ControllerBase` and its stores: the build-once response guard,
 * `invoke_action`'s default render, the cookie-backed `Session` and
 * `Flash`, and `Params`.
 */
module Controller {
  import opened Wrappers
  import opened Nodes
  import FormParser

  /** A cookie whose JSON value has already been decoded into a hash. */
  datatype Cookie = Cookie(name: string, data: map<Key, Node>)

  /** The parts of a request the controller layer reads; form bodies come as decoded pairs. */
  datatype Request = Request(
    verb: string,
    path: string,
    cookies: seq<Cookie>,
    query: Option<seq<(string, string)>>,
    body: Option<seq<(string, string)>>)

  /** The parts of a response the controller layer writes. */
  datatype Response = Response(
    status: int,
    location: Option<string>,
    body: Option<string>,
    contentType: Option<string>,
    cookies: seq<Cookie>)

  /** A response as the server hands it over: status 200, nothing set. */
  const EmptyResponse := Response(200, None, None, None, [])

  const SessionCookie := "_rails_lite_app"
  const FlashCookie := "later"

  /** The data of the last cookie with that name, as an `each` that keeps overwriting finds it. */
  function LastCookie(cookies: seq<Cookie>, name: string): (r: Option<map<Key, Node>>)
    ensures r.None? <==> forall i :: 0 <= i < |cookies| ==> cookies[i].name != name
    ensures r.Some? ==>
      exists i :: && 0 <= i < |cookies|
                  && cookies[i].name == name
                  && r.value == cookies[i].data
                  && forall j :: i < j < |cookies| ==> cookies[j].name != name
    decreases |cookies|
  {
    if |cookies| == 0 then None
    else
      var last := cookies[|cookies| - 1];
      if last.name == name then Some(last.data)
      else
        var init := cookies[..|cookies| - 1];
        assert forall i :: 0 <= i < |init| ==> init[i] == cookies[i];
        assert cookies == init + [last];
        LastCookie(init, name)
  }

  // ---------------------------------------------------------------------------
  // Session

  datatype Session = Session(store: map<Key, Node>)

  /**
   * `Session.new(req)`: the last app cookie's hash, or `{}` when there is
   * none. Cookie values arrive already parsed from JSON.
   */
  function NewSession(cookies: seq<Cookie>): (s: Session)
    ensures (forall i :: 0 <= i < |cookies| ==> cookies[i].name != SessionCookie) ==> s.store == map[]
    ensures forall i ::
      (&& 0 <= i < |cookies| && cookies[i].name == SessionCookie
       && forall j :: i < j < |cookies| ==> cookies[j].name != SessionCookie) ==> s.store == cookies[i].data
  {
    match LastCookie(cookies, SessionCookie)
    case None => Session(map[])
    case Some(data) => Session(data)
  }

  /** `session[key]`. */
  function SessionGet(s: Session, k: Key): (r: Option<Node>)
    ensures r.Some? <==> k in s.store
    ensures r.Some? ==> r.value == s.store[k]
  {
    if k in s.store then Some(s.store[k]) else None
  }

  /** `session[key] = val`: that key now reads `val`, every other key reads as before. */
  function SessionSet(s: Session, k: Key, v: Node): (s': Session)
    ensures SessionGet(s', k) == Some(v)
    ensures forall k' :: k' != k ==> SessionGet(s', k') == SessionGet(s, k')
  {
    Session(s.store[k := v])
  }

  /**
   * `store_session(res)`: appends the app cookie holding the whole session
   * as JSON; the earlier cookies and the rest of the response stay.
   */
  function StoreSession(s: Session, res: Response): (res': Response)
    ensures |res'.cookies| == |res.cookies| + 1 && res'.cookies[..|res.cookies|] == res.cookies
    ensures LastCookie(res'.cookies, SessionCookie) == Some(JsonMap(s.store))
    ensures res'.(cookies := res.cookies) == res
  {
    res.(cookies := res.cookies + [Cookie(SessionCookie, JsonMap(s.store))])
  }

  /**
   * The next request's session is this one through JSON: a symbol key comes
   * back as a string key, so `session[:k]` is read back as `session["k"]`,
   * and a session with string keys only comes back unchanged.
   */
  lemma SessionRoundTrip(s: Session, res: Response)
    ensures NewSession(StoreSession(s, res).cookies) == Session(JsonMap(s.store))
    ensures var next := NewSession(StoreSession(s, res).cookies);
      forall n :: Sym(n) in s.store ==>
        SessionGet(next, Sym(n)) == None && SessionGet(next, Str(n)) == Some(Jsonify(s.store[Sym(n)]))
    ensures var next := NewSession(StoreSession(s, res).cookies);
      forall n :: Str(n) in s.store && Sym(n) !in s.store ==>
        SessionGet(next, Str(n)) == Some(Jsonify(s.store[Str(n)]))
    ensures StringKeyed(Hash(s.store)) ==> NewSession(StoreSession(s, res).cookies) == s
  {
    JsonStable(Hash(s.store));
  }

  // ---------------------------------------------------------------------------
  // Flash

  /** `now` lives for this request only; `later` is stored in a cookie for the next. */
  datatype Flash = Flash(now: map<Key, Node>, later: map<Key, Node>)

  /** `Flash.new(req)`: `now` empty, `later` from the last `later` cookie, else `{}`. */
  function NewFlash(cookies: seq<Cookie>): (f: Flash)
    ensures f.now == map[]
    ensures (forall i :: 0 <= i < |cookies| ==> cookies[i].name != FlashCookie) ==> f.later == map[]
    ensures forall i ::
      (&& 0 <= i < |cookies| && cookies[i].name == FlashCookie
       && forall j :: i < j < |cookies| ==> cookies[j].name != FlashCookie) ==> f.later == cookies[i].data
  {
    match LastCookie(cookies, FlashCookie)
    case None => Flash(map[], map[])
    case Some(data) => Flash(map[], data)
  }

  /**
   * `flash[key]`: `now[key.to_sym] || later[key.to_sym] || now[key.to_s] ||
   * later[key.to_s]`; every stored value is truthy, so the first present wins.
   */
  function FlashGet(f: Flash, name: string): (r: Option<Node>)
    ensures r.None? <==>
      Sym(name) !in f.now && Sym(name) !in f.later && Str(name) !in f.now && Str(name) !in f.later
    ensures Sym(name) in f.now ==> r == Some(f.now[Sym(name)])
    ensures Sym(name) !in f.now && Sym(name) in f.later ==> r == Some(f.later[Sym(name)])
    ensures Sym(name) !in f.now && Sym(name) !in f.later && Str(name) in f.now ==> r == Some(f.now[Str(name)])
    ensures Sym(name) !in f.now && Sym(name) !in f.later && Str(name) !in f.now && Str(name) in f.later ==>
      r == Some(f.later[Str(name)])
  {
    if Sym(name) in f.now then Some(f.now[Sym(name)])
    else if Sym(name) in f.later then Some(f.later[Sym(name)])
    else if Str(name) in f.now then Some(f.now[Str(name)])
    else if Str(name) in f.later then Some(f.later[Str(name)])
    else None
  }

  /** `flash[key] = val`: kept for the next request. */
  function FlashSet(f: Flash, k: Key, v: Node): (f': Flash)
    ensures f'.now == f.now && f'.later == f.later[k := v]
  {
    f.(later := f.later[k := v])
  }

  /** `flash.now[key] = val`: for this request only. */
  function FlashSetNow(f: Flash, k: Key, v: Node): (f': Flash)
    ensures f'.later == f.later && f'.now == f.now[k := v]
  {
    f.(now := f.now[k := v])
  }

  /**
   * `store_flash(res)`: appends the `later` cookie holding `later` as JSON;
   * `now` is not stored, and the earlier cookies stay.
   */
  function StoreFlash(f: Flash, res: Response): (res': Response)
    ensures |res'.cookies| == |res.cookies| + 1 && res'.cookies[..|res.cookies|] == res.cookies
    ensures LastCookie(res'.cookies, FlashCookie) == Some(JsonMap(f.later))
    ensures res'.(cookies := res.cookies) == res
  {
    res.(cookies := res.cookies + [Cookie(FlashCookie, JsonMap(f.later))])
  }

  /**
   * A value set with `flash[key]` reads back in this request unless
   * `flash.now` holds the symbol key, and in the next request, where it
   * arrives through JSON under the string key.
   */
  lemma FlashSetThenGet(f: Flash, name: string, v: Node, res: Response)
    ensures Sym(name) !in f.now ==> FlashGet(FlashSet(f, Sym(name), v), name) == Some(v)
    ensures FlashGet(NewFlash(StoreFlash(FlashSet(f, Sym(name), v), res).cookies), name) == Some(Jsonify(v))
  {
    var later := FlashSet(f, Sym(name), v).later;
    assert Written(later, name) && JsonSource(later, name) == Sym(name);
  }

  /** `flash.now` wins in this request and is gone in the next. */
  lemma FlashNowIsDropped(f: Flash, k: Key, v: Node, res: Response)
    ensures k.Sym? ==> FlashGet(FlashSetNow(f, k, v), k.name) == Some(v)
    ensures NewFlash(StoreFlash(FlashSetNow(f, k, v), res).cookies) == Flash(map[], JsonMap(f.later))
  {
  }

  // ---------------------------------------------------------------------------
  // Params

  datatype Params = Params(entries: map<Key, Node>)

  /** A source of params that may be absent (a nil query string or body). */
  function ParseSource(src: Option<seq<(string, string)>>): (r: Result<map<Key, Node>>)
    ensures src.None? ==> r == Success(map[])
    ensures src.Some? ==> r == FormParser.ParseForm(src.value)
  {
    if src.None? then Success(map[]) else FormParser.ParseForm(src.value)
  }

  /**
   * `Params.new(req, route_params)`: route params, then the parsed query
   * string, then the parsed body, each `merge!`d over the last, so a later
   * source replaces a top-level key of an earlier one.
   */
  function NewParams(req: Request, route: map<Key, Node>): (r: Result<Params>)
    ensures r.Success? <==> ParseSource(req.query).Success? && ParseSource(req.body).Success?
    ensures r.Success? ==>
      var q := ParseSource(req.query).value;
      var b := ParseSource(req.body).value;
      && r.value.entries.Keys == route.Keys + q.Keys + b.Keys
      && (forall k :: k in b ==> r.value.entries[k] == b[k])
      && (forall k :: k in q && k !in b ==> r.value.entries[k] == q[k])
      && (forall k :: k in route && k !in q && k !in b ==> r.value.entries[k] == route[k])
  {
    var q :- ParseSource(req.query);
    var b :- ParseSource(req.body);
    Success(Params(route + q + b))
  }

  /** `params[key]`: `@params[key.to_s] || @params[key.to_sym]`. */
  function ParamsGet(p: Params, name: string): (r: Option<Node>)
    ensures r.Some? <==> Str(name) in p.entries || Sym(name) in p.entries
    ensures Str(name) in p.entries ==> r == Some(p.entries[Str(name)])
    ensures Str(name) !in p.entries && Sym(name) in p.entries ==> r == Some(p.entries[Sym(name)])
  {
    if Str(name) in p.entries then Some(p.entries[Str(name)])
    else if Sym(name) in p.entries then Some(p.entries[Sym(name)])
    else None
  }

  /**
   * A route param given under a symbol is found by name unless a source
   * parsed from the request mentions the same name.
   */
  lemma RouteParamFound(req: Request, route: map<Key, Node>, name: string)
    requires NewParams(req, route).Success?
    requires Sym(name) in route && Str(name) !in route
    requires forall k :: k in ParseSource(req.query).value ==> k.Str? && k.name != name
    requires forall k :: k in ParseSource(req.body).value ==> k.Str? && k.name != name
    ensures ParamsGet(NewParams(req, route).value, name) == Some(route[Sym(name)])
  {
  }

  // ---------------------------------------------------------------------------
  // The controller

  datatype Controller = Controller(
    req: Request,
    res: Response,
    built: bool,
    session: Session,
    flash: Flash,
    params: Params)

  /** `ControllerBase.new(req, res, route_params)`: nothing built yet. */
  function NewController(req: Request, res: Response, route: map<Key, Node>): (r: Result<Controller>)
    ensures r.Success? <==> NewParams(req, route).Success?
    ensures r.Success? ==>
      && !AlreadyBuilt(r.value)
      && r.value.res == res
      && r.value.params == NewParams(req, route).value
      && r.value.session == NewSession(req.cookies)
      && r.value.flash == NewFlash(req.cookies)
  {
    var p :- NewParams(req, route);
    Success(Controller(req, res, false, NewSession(req.cookies), NewFlash(req.cookies), p))
  }

  /** `already_built_response?`. */
  predicate AlreadyBuilt(c: Controller)
  {
    c.built
  }

  /** After building: the session cookie, then the flash cookie. */
  function Persist(c: Controller, res: Response): Response
  {
    StoreFlash(c.flash, StoreSession(c.session, res))
  }

  /**
   * The next request reads back this request's session and `later` flash
   * from the cookies a build appends, and the earlier cookies stay in front.
   */
  lemma PersistReadBack(c: Controller, res: Response)
    ensures NewSession(Persist(c, res).cookies) == Session(JsonMap(c.session.store))
    ensures NewFlash(Persist(c, res).cookies) == Flash(map[], JsonMap(c.flash.later))
    ensures Persist(c, res).cookies[..|res.cookies|] == res.cookies
  {
    var cs := Persist(c, res).cookies;
    var front := StoreSession(c.session, res).cookies;
    assert cs[..|cs| - 1] == front;
    assert LastCookie(front, SessionCookie) == Some(JsonMap(c.session.store));
    assert LastCookie(cs, SessionCookie) == LastCookie(front, SessionCookie);
  }

  /**
   * `render_content(content, content_type)`: raises on a built response;
   * otherwise sets body and content type, marks the response built and
   * stores session and flash. Status and location stay as they were.
   */
  function RenderContent(c: Controller, content: string, contentType: string): (r: Result<Controller>)
    ensures r.Failure? <==> AlreadyBuilt(c)
    ensures r.Failure? ==> r.error == DoubleRender
    ensures r.Success? ==>
      && AlreadyBuilt(r.value)
      && r.value.res.body == Some(content)
      && r.value.res.contentType == Some(contentType)
      && r.value.res.status == c.res.status
      && r.value.res.location == c.res.location
      && NewSession(r.value.res.cookies) == Session(JsonMap(c.session.store))
      && NewFlash(r.value.res.cookies).later == JsonMap(c.flash.later)
      && |c.res.cookies| <= |r.value.res.cookies|
      && r.value.res.cookies[..|c.res.cookies|] == c.res.cookies
      && r.value.(res := c.res, built := false) == c
    ensures r.Success? ==>
      r.value.res.cookies ==
      c.res.cookies + [Cookie(SessionCookie, JsonMap(c.session.store)), Cookie(FlashCookie, JsonMap(c.flash.later))]
  {
    if AlreadyBuilt(c) then Failure(DoubleRender)
    else
      var res := c.res.(body := Some(content), contentType := Some(contentType));
      PersistReadBack(c, res);
      Success(c.(res := Persist(c, res), built := true))
  }

  /**
   * `redirect_to(url)`: raises on a built response; otherwise sets the
   * location and status 302, marks the response built and stores session
   * and flash. Body and content type stay as they were.
   */
  function RedirectTo(c: Controller, url: string): (r: Result<Controller>)
    ensures r.Failure? <==> AlreadyBuilt(c)
    ensures r.Failure? ==> r.error == DoubleRender
    ensures r.Success? ==>
      && AlreadyBuilt(r.value)
      && r.value.res.location == Some(url)
      && r.value.res.status == 302
      && r.value.res.body == c.res.body
      && r.value.res.contentType == c.res.contentType
      && NewSession(r.value.res.cookies) == Session(JsonMap(c.session.store))
      && NewFlash(r.value.res.cookies).later == JsonMap(c.flash.later)
      && |c.res.cookies| <= |r.value.res.cookies|
      && r.value.res.cookies[..|c.res.cookies|] == c.res.cookies
      && r.value.(res := c.res, built := false) == c
    ensures r.Success? ==>
      r.value.res.cookies ==
      c.res.cookies + [Cookie(SessionCookie, JsonMap(c.session.store)), Cookie(FlashCookie, JsonMap(c.flash.later))]
  {
    if AlreadyBuilt(c) then Failure(DoubleRender)
    else
      var res := c.res.(location := Some(url), status := 302);
      PersistReadBack(c, res);
      Success(c.(res := Persist(c, res), built := true))
  }

  /** One call that builds the response. */
  datatype Build = RenderCall(content: string, contentType: string) | RedirectCall(url: string)

  function Apply(c: Controller, b: Build): Result<Controller>
  {
    match b
    case RenderCall(content, t) => RenderContent(c, content, t)
    case RedirectCall(url) => RedirectTo(c, url)
  }

  /** A sequence of build calls, stopping at the first that raises. */
  function ApplyAll(c: Controller, bs: seq<Build>): Result<Controller>
    decreases |bs|
  {
    if |bs| == 0 then Success(c)
    else
      var c' :- Apply(c, bs[0]);
      ApplyAll(c', bs[1..])
  }

  /**
   * The response is built at most once: from an unbuilt controller a
   * sequence of render and redirect calls completes exactly when it has at
   * most one call, and from a built one only the empty sequence completes.
   */
  lemma {:induction false} BuiltAtMostOnce(c: Controller, bs: seq<Build>)
    ensures !AlreadyBuilt(c) ==> (ApplyAll(c, bs).Success? <==> |bs| <= 1)
    ensures AlreadyBuilt(c) ==> (ApplyAll(c, bs).Success? <==> |bs| == 0)
    ensures |bs| == 1 && !AlreadyBuilt(c) ==> AlreadyBuilt(ApplyAll(c, bs).value)
    decreases |bs|
  {
    if |bs| > 0 {
      if !AlreadyBuilt(c) {
        var c' := Apply(c, bs[0]).value;
        assert AlreadyBuilt(c');
        BuiltAtMostOnce(c', bs[1..]);
      }
    }
  }

  /**
   * `invoke_action(name)`: runs the action, then renders the action's
   * template as `text/html` unless the action built the response itself.
   * The action is a function of the controller; `template` is the rendered
   * view for the controller state it is given.
   */
  function InvokeAction(c: Controller, action: Controller -> Result<Controller>, template: Controller -> string)
    : (r: Result<Controller>)
    ensures r.Success? <==> action(c).Success?
    ensures r.Failure? ==> r == action(c)
    ensures r.Success? ==> AlreadyBuilt(r.value)
    ensures action(c).Success? && AlreadyBuilt(action(c).value) ==> r == action(c)
    ensures action(c).Success? && !AlreadyBuilt(action(c).value) ==>
      && r.value.res.body == Some(template(action(c).value))
      && r.value.res.contentType == Some("text/html")
    ensures action(c).Success? && !AlreadyBuilt(action(c).value) ==>
      r == RenderContent(action(c).value, template(action(c).value), "text/html")
  {
    var c' :- action(c);
    if AlreadyBuilt(c') then Success(c') else RenderContent(c', template(c'), "text/html")
  }
}

=== FILE: form_keys.dfy ===
/**
 * `Params#parse_key`: `key.split(/\]\[|\[|\]/)`. The pattern's alternatives
 * are tried in order at each position, so `][` is one separator, and Ruby's
 * `split` drops the trailing empty fields.
 */
module FormKeys {

  /** A character that the key pattern treats as a separator. */
  predicate IsBracket(c: char)
  {
    c == '[' || c == ']'
  }

  predicate BracketFree(s: string)
  {
    forall i :: 0 <= i < |s| ==> !IsBracket(s[i])
  }

  /** The fields between separators, before trailing empties are dropped. */
  function Fields(s: string): (fs: seq<string>)
    ensures |fs| >= 1
    decreases |s|
  {
    if |s| == 0 then [""]
    else if |s| >= 2 && s[0] == ']' && s[1] == '[' then [""] + Fields(s[2..])
    else if IsBracket(s[0]) then [""] + Fields(s[1..])
    else
      var rest := Fields(s[1..]);
      [[s[0]] + rest[0]] + rest[1..]
  }

  /** `split`'s removal of trailing empty strings. */
  function DropTrailingEmpty(fs: seq<string>): (r: seq<string>)
    ensures |r| <= |fs| && r == fs[..|r|]
    ensures |r| > 0 ==> r[|r| - 1] != ""
    ensures forall i :: |r| <= i < |fs| ==> fs[i] == ""
    decreases |fs|
  {
    if |fs| > 0 && fs[|fs| - 1] == "" then DropTrailingEmpty(fs[..|fs| - 1]) else fs
  }

  /** `parse_key`: `user[address][street]` gives `["user", "address", "street"]`. */
  function ParseKey(key: string): (r: seq<string>)
    ensures forall i :: 0 <= i < |r| ==> BracketFree(r[i])
    ensures |r| > 0 ==> r[|r| - 1] != ""
  {
    FieldsBracketFree(key);
    DropTrailingEmpty(Fields(key))
  }

  /** No field contains a bracket. */
  lemma {:induction false} FieldsBracketFree(s: string)
    ensures forall i :: 0 <= i < |Fields(s)| ==> BracketFree(Fields(s)[i])
    decreases |s|
  {
    if |s| >= 2 && s[0] == ']' && s[1] == '[' {
      FieldsBracketFree(s[2..]);
    } else if |s| > 0 {
      FieldsBracketFree(s[1..]);
    }
  }

  /** A bracket-free prefix extends the first field. */
  lemma {:induction false} FieldsPlain(w: string, t: string)
    requires BracketFree(w)
    ensures Fields(w + t) == [w + Fields(t)[0]] + Fields(t)[1..]
    decreases |w|
  {
    if |w| > 0 {
      var u := w + t;
      assert u[0] == w[0] && !IsBracket(w[0]);
      assert u[1..] == w[1..] + t;
      assert BracketFree(w[1..]) by {
        forall i | 0 <= i < |w[1..]| ensures !IsBracket(w[1..][i]) {
          assert w[1..][i] == w[i + 1];
        }
      }
      FieldsPlain(w[1..], t);
      var rest := Fields(u[1..]);
      assert Fields(u) == [[u[0]] + rest[0]] + rest[1..];
      assert [w[0]] + (w[1..] + Fields(t)[0]) == w + Fields(t)[0];
    } else {
      assert w + t == t;
      assert w + Fields(t)[0] == Fields(t)[0];
      assert [Fields(t)[0]] + Fields(t)[1..] == Fields(t);
    }
  }

  /** A key without brackets parses to itself alone; the empty key to nothing. */
  lemma BracketFreeKey(key: string)
    requires BracketFree(key)
    ensures ParseKey(key) == (if key == "" then [] else [key])
  {
    FieldsPlain(key, "");
    assert key + "" == key;
  }

  /** `n1][n2]…][nk]`: the bracketed part of a nested key after its first `[`. */
  function Bracketed(ns: seq<string>): string
    requires |ns| > 0
    decreases |ns|
  {
    if |ns| == 1 then ns[0] + "]" else ns[0] + "][" + Bracketed(ns[1..])
  }

  /** The nested key `n0[n1][n2]…`, as a form writes it. */
  function Nest(ns: seq<string>): string
    requires |ns| > 0
  {
    if |ns| == 1 then ns[0] else ns[0] + "[" + Bracketed(ns[1..])
  }

  lemma {:induction false} FieldsBracketed(ns: seq<string>)
    requires |ns| > 0
    requires forall i :: 0 <= i < |ns| ==> BracketFree(ns[i])
    ensures Fields(Bracketed(ns)) == ns + [""]
    decreases |ns|
  {
    if |ns| == 1 {
      assert Fields("]") == ["", ""] by {
        assert "]"[1..] == "";
      }
      FieldsPlain(ns[0], "]");
      assert ns[0] + "" == ns[0];
      assert [ns[0]] + [""] == ns + [""];
    } else {
      var t := "][" + Bracketed(ns[1..]);
      assert t[2..] == Bracketed(ns[1..]);
      FieldsBracketed(ns[1..]);
      assert Fields(t) == [""] + ns[1..] + [""];
      assert ns[0] + "][" + Bracketed(ns[1..]) == ns[0] + t;
      FieldsPlain(ns[0], t);
      assert Fields(t)[0] == "" && ns[0] + "" == ns[0];
      assert Fields(t)[1..] == ns[1..] + [""];
      assert [ns[0]] + (ns[1..] + [""]) == ns + [""];
    }
  }

  /**
   * `parse_key` inverts nesting: the names of a nested key come back in
   * order, provided they hold no brackets and the last one is not empty
   * (`split` drops trailing empty fields; inner empty names survive).
   */
  lemma ParseNest(ns: seq<string>)
    requires |ns| > 0
    requires forall i :: 0 <= i < |ns| ==> BracketFree(ns[i])
    requires ns[|ns| - 1] != ""
    ensures ParseKey(Nest(ns)) == ns
  {
    if |ns| == 1 {
      BracketFreeKey(ns[0]);
    } else {
      FieldsNest(ns);
      var fs := ns + [""];
      assert fs[..|fs| - 1] == ns;
      assert DropTrailingEmpty(ns) == ns;
      assert DropTrailingEmpty(fs) == DropTrailingEmpty(ns);
    }
  }

  /** The fields of a nested key: its names, then the empty field after the last `]`. */
  lemma FieldsNest(ns: seq<string>)
    requires |ns| > 1
    requires forall i :: 0 <= i < |ns| ==> BracketFree(ns[i])
    ensures Fields(Nest(ns)) == ns + [""]
  {
    var b := Bracketed(ns[1..]);
    var t := "[" + b;
    assert t[1..] == b;
    FieldsBracketed(ns[1..]);
    assert Fields(t) == [""] + Fields(b);
    assert Nest(ns) == ns[0] + t;
    FieldsPlain(ns[0], t);
    assert ns[0] + "" == ns[0];
    assert [ns[0]] + (ns[1..] + [""]) == ns + [""];
  }
}

=== FILE: form_parser.dfy ===
/**
 * `Params#parse_www_encoded_form` on already-decoded pairs: each pair's key
 * is split into a path, hashes are created along it as needed, and the
 * value is stored at its end.
 */
module FormParser {
  import opened Wrappers
  import opened Nodes
  import FormKeys

  /** The path a decoded key stands for; a key with no names stores under nil. */
  function PathOf(name: string): (p: seq<Key>)
    ensures |p| >= 1
    ensures |FormKeys.ParseKey(name)| == 0 ==> p == [NilKey]
    ensures |FormKeys.ParseKey(name)| > 0 ==>
      |p| == |FormKeys.ParseKey(name)| && forall i :: 0 <= i < |p| ==> p[i] == Str(FormKeys.ParseKey(name)[i])
  {
    var names := FormKeys.ParseKey(name);
    if |names| == 0 then [NilKey] else seq(|names|, i requires 0 <= i < |names| => Str(names[i]))
  }

  /**
   * One pair: `current[key] ||= {}` down the path, then `current[last] = value`.
   * Descending into a string value is String indexing in Ruby, not a
   * hash step; it is reported as an error here.
   */
  function Insert(h: map<Key, Node>, path: seq<Key>, v: string): (r: Result<map<Key, Node>>)
    requires |path| >= 1
    ensures r.Failure? ==> r.error == StringIndex
    ensures r.Success? ==> forall k :: k in h ==> k in r.value
    ensures r.Success? ==> r.value.Keys == h.Keys + {path[0]}
    decreases |path|
  {
    if |path| == 1 then Success(h[path[0] := Leaf(v)])
    else if path[0] in h && h[path[0]].Leaf? then Failure(StringIndex)
    else
      var child := if path[0] in h then h[path[0]].entries else map[];
      var c :- Insert(child, path[1..], v);
      Success(h[path[0] := Hash(c)])
  }

  /** The pair's value is found at the end of its path afterwards. */
  lemma {:induction false} InsertThenFollow(h: map<Key, Node>, path: seq<Key>, v: string)
    requires |path| >= 1 && Insert(h, path, v).Success?
    ensures Follow(Hash(Insert(h, path, v).value), path) == Some(Leaf(v))
    decreases |path|
  {
    if |path| > 1 {
      var child := if path[0] in h then h[path[0]].entries else map[];
      InsertThenFollow(child, path[1..], v);
    }
  }

  /** Nothing on a path that parts from the inserted one changes. */
  lemma {:induction false} InsertFrame(h: map<Key, Node>, path: seq<Key>, v: string, q: seq<Key>)
    requires |path| >= 1 && Insert(h, path, v).Success?
    requires Diverges(path, q)
    ensures Follow(Hash(Insert(h, path, v).value), q) == Follow(Hash(h), q)
    decreases |path|
  {
    if path[0] != q[0] {
    } else if |path| > 1 {
      var child := if path[0] in h then h[path[0]].entries else map[];
      InsertFrame(child, path[1..], v, q[1..]);
      if path[0] !in h {
        EmptyFollow(q[1..]);
      }
    }
  }

  /**
   * A pair on an enclosing path overwrites: after storing a string at `p`,
   * nothing below `p` can be reached.
   */
  lemma EnclosingPathOverwrites(h: map<Key, Node>, p: seq<Key>, v: string, q: seq<Key>)
    requires |p| >= 1 && Insert(h, p, v).Success?
    requires |p| < |q| && q[..|p|] == p
    ensures Follow(Hash(Insert(h, p, v).value), q).None?
  {
    InsertThenFollow(h, p, v);
    FollowPastLeaf(Hash(Insert(h, p, v).value), q, |p|);
  }

  /** An empty hash has nothing below it. */
  lemma EmptyFollow(q: seq<Key>)
    requires |q| > 0
    ensures Follow(Hash(map[]), q).None?
  {
  }

  /**
   * Inserting fails exactly when some proper prefix of the path already
   * holds a string.
   */
  lemma {:induction false} InsertFails(h: map<Key, Node>, path: seq<Key>, v: string)
    requires |path| >= 1
    ensures Insert(h, path, v).Failure? <==>
      exists i :: 1 <= i < |path| && Follow(Hash(h), path[..i]).Some? && Follow(Hash(h), path[..i]).value.Leaf?
    decreases |path|
  {
    if |path| > 1 {
      if path[0] in h && h[path[0]].Leaf? {
        assert path[..1][1..] == [];
        assert Follow(Hash(h), path[..1]) == Some(h[path[0]]);
      } else {
        var child := if path[0] in h then h[path[0]].entries else map[];
        InsertFails(child, path[1..], v);
        if Insert(h, path, v).Failure? {
          var j :| 1 <= j < |path[1..]| && Follow(Hash(child), path[1..][..j]).Some? && Follow(Hash(child), path[1..][..j]).value.Leaf?;
          assert path[..j + 1][1..] == path[1..][..j];
          assert path[0] in h;
        }
        if exists i :: 1 <= i < |path| && Follow(Hash(h), path[..i]).Some? && Follow(Hash(h), path[..i]).value.Leaf? {
          var i :| 1 <= i < |path| && Follow(Hash(h), path[..i]).Some? && Follow(Hash(h), path[..i]).value.Leaf?;
          assert path[..i][1..] == path[1..][..i - 1];
          if i == 1 {
            assert false;
          }
          assert path[0] in h;
        }
      }
    }
  }

  /** The top-level keys the pairs' paths start with. */
  function TopKeys(pairs: seq<(string, string)>): set<Key>
  {
    set j | 0 <= j < |pairs| :: PathOf(pairs[j].0)[0]
  }

  /** The first pair's top key, then the rest's. */
  lemma TopKeysCons(pairs: seq<(string, string)>)
    requires |pairs| > 0
    ensures TopKeys(pairs) == {PathOf(pairs[0].0)[0]} + TopKeys(pairs[1..])
  {
    forall k | k in TopKeys(pairs) ensures k in {PathOf(pairs[0].0)[0]} + TopKeys(pairs[1..]) {
      var j :| 0 <= j < |pairs| && PathOf(pairs[j].0)[0] == k;
      if j > 0 { assert pairs[1..][j - 1] == pairs[j]; }
    }
    forall k | k in TopKeys(pairs[1..]) ensures k in TopKeys(pairs) {
      var j :| 0 <= j < |pairs[1..]| && PathOf(pairs[1..][j].0)[0] == k;
      assert pairs[j + 1] == pairs[1..][j];
    }
  }

  /**
   * The pairs folded into a hash in order, stopping at the first error:
   * the only error is descending into a string, and on success the
   * top-level keys are the old ones plus each pair's first key.
   */
  function InsertAll(h: map<Key, Node>, pairs: seq<(string, string)>): (r: Result<map<Key, Node>>)
    ensures r.Failure? ==> r.error == StringIndex
    ensures r.Success? ==> r.value.Keys == h.Keys + TopKeys(pairs)
    decreases |pairs|
  {
    if |pairs| == 0 then Success(h)
    else
      var h' :- Insert(h, PathOf(pairs[0].0), pairs[0].1);
      TopKeysCons(pairs);
      InsertAll(h', pairs[1..])
  }

  /**
   * `parse_www_encoded_form` on the decoded pairs: no pairs give `{}`, and
   * a parsed form holds one top-level key per distinct first path key.
   */
  function ParseForm(pairs: seq<(string, string)>): (r: Result<map<Key, Node>>)
    ensures |pairs| == 0 ==> r == Success(map[])
    ensures r.Failure? ==> r.error == StringIndex
    ensures r.Success? ==> r.value.Keys == TopKeys(pairs)
  {
    InsertAll(map[], pairs)
  }

  /** Pairs whose paths all part from `q` leave what `q` leads to alone. */
  lemma {:induction false} InsertAllFrame(h: map<Key, Node>, pairs: seq<(string, string)>, q: seq<Key>)
    requires InsertAll(h, pairs).Success?
    requires forall j :: 0 <= j < |pairs| ==> Diverges(PathOf(pairs[j].0), q)
    ensures Follow(Hash(InsertAll(h, pairs).value), q) == Follow(Hash(h), q)
    decreases |pairs|
  {
    if |pairs| > 0 {
      var h' := Insert(h, PathOf(pairs[0].0), pairs[0].1).value;
      InsertFrame(h, PathOf(pairs[0].0), pairs[0].1, q);
      assert forall j :: 0 <= j < |pairs[1..]| ==> pairs[1..][j] == pairs[j + 1];
      InsertAllFrame(h', pairs[1..], q);
    }
  }

  /**
   * Every pair whose path parts from the paths of all later pairs is found
   * at the end of its path in the result: siblings under a shared prefix
   * are all kept, and only a later pair on the same or an enclosing path
   * can replace a value.
   */
  lemma {:induction false} EveryPairKept(h: map<Key, Node>, pairs: seq<(string, string)>, i: nat)
    requires InsertAll(h, pairs).Success?
    requires i < |pairs|
    requires forall j :: i < j < |pairs| ==> Diverges(PathOf(pairs[j].0), PathOf(pairs[i].0))
    ensures Follow(Hash(InsertAll(h, pairs).value), PathOf(pairs[i].0)) == Some(Leaf(pairs[i].1))
    decreases |pairs|
  {
    var p0 := PathOf(pairs[0].0);
    assert Insert(h, p0, pairs[0].1).Success?;
    var h' := Insert(h, p0, pairs[0].1).value;
    assert InsertAll(h, pairs) == InsertAll(h', pairs[1..]);
    if i == 0 {
      InsertThenFollow(h, p0, pairs[0].1);
      forall j | 0 <= j < |pairs[1..]| ensures Diverges(PathOf(pairs[1..][j].0), p0) {
        assert pairs[1..][j] == pairs[j + 1];
      }
      InsertAllFrame(h', pairs[1..], p0);
    } else {
      assert pairs[1..][i - 1] == pairs[i];
      forall j | i - 1 < j < |pairs[1..]| ensures Diverges(PathOf(pairs[1..][j].0), PathOf(pairs[i].0)) {
        assert pairs[1..][j] == pairs[j + 1];
      }
      EveryPairKept(h', pairs[1..], i - 1);
    }
  }


  /** The parsed form holds every pair not overwritten by a later related pair. */
  lemma ParsedPairs(pairs: seq<(string, string)>, i: nat)
    requires ParseForm(pairs).Success?
    requires i < |pairs|
    requires forall j :: i < j < |pairs| ==> Diverges(PathOf(pairs[j].0), PathOf(pairs[i].0))
    ensures Follow(Hash(ParseForm(pairs).value), PathOf(pairs[i].0)) == Some(Leaf(pairs[i].1))
  {
    EveryPairKept(map[], pairs, i);
  }
}

=== FILE: nodes.dfy ===
/**
 * Nested parameter values: string leaves and hashes keyed by strings,
 * symbols or nil, with path lookup. Shared by the form parser, the
 * controller's stores and the chain builder.
 */
module Nodes {
  import opened Wrappers

  /** A Ruby hash key as the controller layer uses them. */
  datatype Key = Str(name: string) | Sym(name: string) | NilKey

  /** A parameter value: a string, or a hash of further values. */
  datatype Node = Leaf(text: string) | Hash(entries: map<Key, Node>)

  /** `h[k1][k2]…[kn]`, or None when some step is missing or not a hash. */
  function Follow(n: Node, path: seq<Key>): (r: Option<Node>)
    ensures |path| == 0 ==> r == Some(n)
    ensures |path| > 0 && r.Some? ==> n.Hash? && path[0] in n.entries
    decreases |path|
  {
    if |path| == 0 then Some(n)
    else
      match n
      case Leaf(_) => None
      case Hash(m) => if path[0] in m then Follow(m[path[0]], path[1..]) else None
  }

  /** Two key paths that part at some position: neither is a prefix of the other. */
  predicate Diverges(p: seq<Key>, q: seq<Key>)
    decreases |p|
  {
    |p| > 0 && |q| > 0 && (p[0] != q[0] || Diverges(p[1..], q[1..]))
  }

  /** A path that has a strict prefix leading to a leaf cannot be followed through. */
  lemma {:induction false} FollowPastLeaf(n: Node, path: seq<Key>, i: nat)
    requires i < |path|
    requires Follow(n, path[..i]).Some? && Follow(n, path[..i]).value.Leaf?
    ensures Follow(n, path).None?
    decreases i
  {
    if i > 0 {
      assert path[..i][1..] == path[1..][..i - 1];
      FollowPastLeaf(n.entries[path[0]], path[1..], i - 1);
    }
  }

  /** `key.to_s`: the text a key is written as in JSON. */
  function KeyText(k: Key): string
  {
    match k
    case Str(n) => n
    case Sym(n) => n
    case NilKey => ""
  }

  /** `JSON.parse(n.to_json)`: every key becomes a string key, string leaves stay. */
  function Jsonify(n: Node): (r: Node)
    ensures r.Leaf? <==> n.Leaf?
    decreases n, 2
  {
    match n
    case Leaf(t) => Leaf(t)
    case Hash(m) => Hash(JsonMap(m))
  }

  /** A value as parsed from JSON: every hash key, at every depth, is a string. */
  predicate StringKeyed(n: Node)
    decreases n
  {
    match n
    case Leaf(_) => true
    case Hash(m) => forall k :: k in m ==> k.Str? && StringKeyed(m[k])
  }

  /** The keys `to_json` writes as `n`. */
  predicate Written(m: map<Key, Node>, n: string)
  {
    Str(n) in m || Sym(n) in m || (n == "" && NilKey in m)
  }

  /**
   * Of the keys of `m` written as `n`, the one whose value the parsed JSON
   * keeps: the symbol, else the string, else nil. (Ruby keeps the one
   * inserted last; see README.)
   */
  function JsonSource(m: map<Key, Node>, n: string): (k: Key)
    requires Written(m, n)
    ensures k in m && KeyText(k) == n
  {
    if Sym(n) in m then Sym(n) else if Str(n) in m then Str(n) else NilKey
  }

  /** A hash through `to_json` and `JSON.parse`: one string key per written text. */
  function JsonMap(m: map<Key, Node>): (r: map<Key, Node>)
    ensures forall k :: k in r ==> k.Str?
    ensures forall n :: Str(n) in r <==> Written(m, n)
    ensures forall n :: Written(m, n) ==> r[Str(n)] == Jsonify(m[JsonSource(m, n)])
    decreases Hash(m), 1
  {
    var texts := set k | k in m :: Str(KeyText(k));
    assert forall k :: k in texts ==> k.Str? && Written(m, k.name);
    assert forall n :: Written(m, n) ==> Str(n) in texts by {
      forall n | Written(m, n) ensures Str(n) in texts {
        var k := JsonSource(m, n);
        assert Str(KeyText(k)) in texts;
      }
    }
    map k | k in texts :: Jsonify(m[JsonSource(m, k.name)])
  }

  /**
   * What JSON gives back is string-keyed, and a string-keyed value comes
   * back from JSON unchanged: a parsed cookie survives being stored again.
   */
  lemma {:induction false} JsonStable(n: Node)
    ensures StringKeyed(Jsonify(n))
    ensures StringKeyed(n) ==> Jsonify(n) == n
    decreases n
  {
    match n
    case Leaf(_) =>
    case Hash(m) =>
      var r := Jsonify(n).entries;
      forall k | k in r ensures k.Str? && StringKeyed(r[k]) {
        JsonStable(m[JsonSource(m, k.name)]);
      }
      if StringKeyed(n) {
        forall k | k in m ensures k in r && r[k] == m[k] {
          assert Written(m, k.name) && JsonSource(m, k.name) == k;
          JsonStable(m[k]);
        }
        assert r == m;
      }
  }
}

=== FILE: query.dfy ===
/**
 * `Relation`: an immutable criteria map bound to a table, materialised on
 * first observation and cached from then on, plus the sequence operations
 * it forwards to the cached result.
 */
module Query {
  import opened Wrappers
  import opened Records
  import RubyHash

  /** The store: table name to table. */
  type Db = map<string, Table>

  /** Column-to-value equalities, in insertion order, all ANDed. */
  type Criteria = RubyHash.Hash<Column, Value>

  /** A relation: its criteria, its table and its write-once cache slot. */
  datatype Relation = Relation(criteria: Criteria, tableName: string, cache: Option<seq<Record>>)

  /** `Searchable#where` on a class: a new relation on the class's table, nothing loaded. */
  function Start(tableName: string, criteria: Criteria): (r: Relation)
    ensures r.criteria == criteria && r.tableName == tableName && r.cache.None?
  {
    Relation(criteria, tableName, None)
  }

  /**
   * `Relation#where`: a new relation on the same table whose criteria are
   * the old ones merged with the new, the new value winning on a shared key.
   */
  function Where(rel: Relation, criteria: Criteria): (r: Relation)
    requires RubyHash.DistinctKeys(criteria)
    ensures r.tableName == rel.tableName && r.cache.None?
    ensures forall k ::
              RubyHash.Get(r.criteria, k) ==
              (if RubyHash.HasKey(criteria, k) then RubyHash.Get(criteria, k) else RubyHash.Get(rel.criteria, k))
    ensures RubyHash.DistinctKeys(rel.criteria) ==> RubyHash.DistinctKeys(r.criteria)
  {
    MergedCriteria(rel.criteria, criteria);
    Relation(RubyHash.Merge(rel.criteria, criteria), rel.tableName, None)
  }

  /** The merged criteria answer each key from the newer criteria first. */
  lemma MergedCriteria(a: Criteria, b: Criteria)
    requires RubyHash.DistinctKeys(b)
    ensures forall k ::
              RubyHash.Get(RubyHash.Merge(a, b), k) ==
              (if RubyHash.HasKey(b, k) then RubyHash.Get(b, k) else RubyHash.Get(a, k))
    ensures RubyHash.DistinctKeys(a) ==> RubyHash.DistinctKeys(RubyHash.Merge(a, b))
  {
    forall k ensures RubyHash.Get(RubyHash.Merge(a, b), k) ==
      if RubyHash.HasKey(b, k) then RubyHash.Get(b, k) else RubyHash.Get(a, k)
    {
      RubyHash.MergeGet(a, b, k);
    }
    if RubyHash.DistinctKeys(a) {
      RubyHash.MergeKeepsDistinct(a, b);
    }
  }

  /** `<k> = ?` bound to `v` holds of a row; SQL's `= NULL` is never true. */
  predicate Holds(row: Row, k: Column, v: Value)
  {
    v != Nil && k in row && row[k] == v
  }

  /** A row satisfies every equality of the criteria. */
  predicate Satisfies(row: Row, criteria: Criteria)
  {
    forall i :: 0 <= i < |criteria| ==> Holds(row, criteria[i].0, criteria[i].1)
  }

  /** A single equality is satisfied exactly when it holds. */
  lemma SingleSatisfies(k: Column, v: Value)
    ensures forall row :: Satisfies(row, [(k, v)]) <==> Holds(row, k, v)
  {
    forall row ensures Satisfies(row, [(k, v)]) <==> Holds(row, k, v) {
      assert [(k, v)][0] == (k, v);
    }
  }

  /** The rows satisfying the criteria, as records, in scan order. */
  function Matching(rows: seq<Row>, criteria: Criteria): (rs: seq<Record>)
    ensures |rs| <= |rows|
    ensures rs == [] <==> forall i :: 0 <= i < |rows| ==> !Satisfies(rows[i], criteria)
    ensures rs != [] ==>
      exists i :: && 0 <= i < |rows|
                  && Satisfies(rows[i], criteria)
                  && rs[0] == FromRow(rows[i])
                  && forall j :: 0 <= j < i ==> !Satisfies(rows[j], criteria)
    ensures forall x :: x in rs <==> exists i :: 0 <= i < |rows| && Satisfies(rows[i], criteria) && x == FromRow(rows[i])
  {
    if |rows| == 0 then []
    else
      var rest := Matching(rows[1..], criteria);
      assert forall i :: 1 <= i < |rows| ==> rows[i] == rows[1..][i - 1];
      if Satisfies(rows[0], criteria) then [FromRow(rows[0])] + rest else rest
  }

  /**
   * Filtering keeps scan order across a split: the matches of a
   * concatenation are the matches of the front followed by those of the back.
   */
  lemma {:induction false} MatchingSplit(a: seq<Row>, b: seq<Row>, c: Criteria)
    ensures Matching(a + b, c) == Matching(a, c) + Matching(b, c)
    decreases |a|
  {
    if |a| > 0 {
      assert (a + b)[1..] == a[1..] + b;
      MatchingSplit(a[1..], b, c);
    } else {
      assert a + b == b;
    }
  }

  /**
   * Each satisfying row appears at the position given by the number of
   * matches before it: order is kept and no row is dropped or merged.
   */
  lemma MatchingAt(rows: seq<Row>, c: Criteria, i: nat)
    requires i < |rows| && Satisfies(rows[i], c)
    ensures |Matching(rows[..i], c)| < |Matching(rows, c)|
    ensures Matching(rows, c)[|Matching(rows[..i], c)|] == FromRow(rows[i])
  {
    assert rows == rows[..i] + ([rows[i]] + rows[i + 1..]);
    MatchingSplit(rows[..i], [rows[i]] + rows[i + 1..], c);
    assert ([rows[i]] + rows[i + 1..])[1..] == rows[i + 1..];
  }

  /** When every row satisfies the criteria, the result holds each row once, in order. */
  lemma {:induction false} MatchingKeepsAll(rows: seq<Row>, c: Criteria)
    requires forall i :: 0 <= i < |rows| ==> Satisfies(rows[i], c)
    ensures |Matching(rows, c)| == |rows|
    ensures forall i :: 0 <= i < |rows| ==> Matching(rows, c)[i] == FromRow(rows[i])
    decreases |rows|
  {
    if |rows| > 0 {
      assert forall i :: 1 <= i < |rows| ==> rows[i] == rows[1..][i - 1];
      MatchingKeepsAll(rows[1..], c);
    }
  }

  /**
   * `load`: runs `SELECT * … WHERE k1 = ? AND …`. Empty criteria leave a
   * dangling WHERE (a syntax error); an unknown column or table is an error
   * of the driver; otherwise the rows satisfying every equality.
   */
  function Load(db: Db, rel: Relation): (r: Result<seq<Record>>)
    ensures r.Success? <==>
      && |rel.criteria| > 0
      && rel.tableName in db
      && forall i :: 0 <= i < |rel.criteria| ==> rel.criteria[i].0 in db[rel.tableName].columns
    ensures r.Success? ==> forall x :: x in r.value <==>
      exists row :: row in db[rel.tableName].rows && Satisfies(row, rel.criteria) && x == FromRow(row)
    ensures r.Success? ==>
      (r.value == [] <==> forall row :: row in db[rel.tableName].rows ==> !Satisfies(row, rel.criteria))
    ensures r.Success? ==> r.value == Matching(db[rel.tableName].rows, rel.criteria)
  {
    if |rel.criteria| == 0 then Failure(Driver("syntax error: incomplete WHERE clause"))
    else if rel.tableName !in db then Failure(Driver("no such table: " + rel.tableName))
    else if exists i :: 0 <= i < |rel.criteria| && rel.criteria[i].0 !in db[rel.tableName].columns then
      Failure(Driver("no such column"))
    else
      var rows := db[rel.tableName].rows;
      var rs := Matching(rows, rel.criteria);
      assert forall x :: x in rs <==> exists row :: row in rows && Satisfies(row, rel.criteria) && x == FromRow(row) by {
        forall x | x in rs ensures exists row :: row in rows && Satisfies(row, rel.criteria) && x == FromRow(row) {
          var i :| 0 <= i < |rows| && Satisfies(rows[i], rel.criteria) && x == FromRow(rows[i]);
          assert rows[i] in rows;
        }
        forall x | exists row :: row in rows && Satisfies(row, rel.criteria) && x == FromRow(row) ensures x in rs {
          var row :| row in rows && Satisfies(row, rel.criteria) && x == FromRow(row);
          var i :| 0 <= i < |rows| && rows[i] == row;
        }
      }
      Success(rs)
  }

  /** With distinct keys, satisfying criteria means satisfying every key's looked-up value. */
  lemma SatisfiesByKey(row: Row, c: Criteria)
    requires RubyHash.DistinctKeys(c)
    ensures Satisfies(row, c) <==>
      forall k :: RubyHash.HasKey(c, k) ==> Holds(row, k, RubyHash.Get(c, k).value)
  {
    if Satisfies(row, c) {
      forall k | RubyHash.HasKey(c, k) ensures Holds(row, k, RubyHash.Get(c, k).value) {
        var i :| 0 <= i < |c| && c[i] == (k, RubyHash.Get(c, k).value);
      }
    }
    if forall k :: RubyHash.HasKey(c, k) ==> Holds(row, k, RubyHash.Get(c, k).value) {
      forall i | 0 <= i < |c| ensures Holds(row, c[i].0, c[i].1) {
        assert RubyHash.HasKey(c, c[i].0);
        var j :| 0 <= j < |c| && c[j] == (c[i].0, RubyHash.Get(c, c[i].0).value);
        assert i == j;
      }
    }
  }

  /**
   * Chaining `where(a).where(b)` keeps exactly the rows that satisfy every
   * equality of `b` and every equality of `a` on a key `b` does not mention.
   */
  lemma WhereChain(row: Row, rel: Relation, b: Criteria)
    requires RubyHash.DistinctKeys(rel.criteria) && RubyHash.DistinctKeys(b)
    ensures Satisfies(row, Where(rel, b).criteria) <==>
      && Satisfies(row, b)
      && forall i :: 0 <= i < |rel.criteria| && !RubyHash.HasKey(b, rel.criteria[i].0) ==>
           Holds(row, rel.criteria[i].0, rel.criteria[i].1)
  {
    var a := rel.criteria;
    var m := Where(rel, b).criteria;
    SatisfiesByKey(row, m);
    SatisfiesByKey(row, b);
    SatisfiesByKey(row, a);
    forall k ensures RubyHash.HasKey(m, k) <==> RubyHash.HasKey(a, k) || RubyHash.HasKey(b, k) {
      RubyHash.MergeHasKey(a, b, k);
    }
    if Satisfies(row, m) {
      forall i | 0 <= i < |a| && !RubyHash.HasKey(b, a[i].0) ensures Holds(row, a[i].0, a[i].1) {
        assert RubyHash.HasKey(a, a[i].0);
        var j :| 0 <= j < |a| && a[j] == (a[i].0, RubyHash.Get(a, a[i].0).value);
        assert i == j;
      }
    }
    if && Satisfies(row, b)
       && forall i :: 0 <= i < |a| && !RubyHash.HasKey(b, a[i].0) ==> Holds(row, a[i].0, a[i].1)
    {
      forall k | RubyHash.HasKey(m, k) ensures Holds(row, k, RubyHash.Get(m, k).value) {
        if !RubyHash.HasKey(b, k) {
          var j :| 0 <= j < |a| && a[j] == (k, RubyHash.Get(a, k).value);
        }
      }
    }
  }

  /**
   * `cache` (`@cache ||= load`): the first observation loads and stores the
   * result; once stored, it is returned as is.
   */
  function Observe(db: Db, rel: Relation): (r: Result<(seq<Record>, Relation)>)
    ensures rel.cache.Some? ==> r == Success((rel.cache.value, rel))
    ensures rel.cache.None? ==> (r.Success? <==> Load(db, rel).Success?)
    ensures rel.cache.None? && r.Success? ==>
      r.value.0 == Load(db, rel).value && r.value.1 == rel.(cache := Some(r.value.0))
  {
    match rel.cache
    case Some(rows) => Success((rows, rel))
    case None =>
      match Load(db, rel)
      case Failure(e) => Failure(e)
      case Success(rows) => Success((rows, rel.(cache := Some(rows))))
  }

  /**
   * The cache is written once: after one observation, observing again
   * against any store, changed or not, yields the same sequence and leaves
   * the relation as it is.
   */
  lemma {:induction false} CacheWriteOnce(db: Db, rel: Relation, later: Db)
    requires Observe(db, rel).Success?
    ensures var (rows, rel') := Observe(db, rel).value;
      Observe(later, rel') == Success((rows, rel'))
  {
    var (rows, rel') := Observe(db, rel).value;
    assert rel'.cache == Some(rows);
  }

  /** `==`: compares the cached result with the other operand. */
  function Equals(db: Db, rel: Relation, other: seq<Record>): (r: Result<(bool, Relation)>)
    ensures r.Success? <==> Observe(db, rel).Success?
    ensures r.Success? ==> r.value.1 == Observe(db, rel).value.1
    ensures r.Success? ==> (r.value.0 <==> Observe(db, rel).value.0 == other)
  {
    match Observe(db, rel)
    case Failure(e) => Failure(e)
    case Success((rows, rel')) => Success((rows == other, rel'))
  }

  /** A relation with no matching row equals `[]`. */
  lemma NoMatchEqualsEmpty(db: Db, rel: Relation)
    requires rel.cache.None? && Load(db, rel).Success?
    requires forall row :: row in db[rel.tableName].rows ==> !Satisfies(row, rel.criteria)
    ensures Load(db, rel) == Success([])
    ensures Equals(db, rel, []).Success? && Equals(db, rel, []).value.0
  {
  }

  /** `length`, forwarded to the cached result. */
  function Length(db: Db, rel: Relation): (r: Result<(nat, Relation)>)
    ensures r.Success? <==> Observe(db, rel).Success?
    ensures r.Success? ==> r.value == (|Observe(db, rel).value.0|, Observe(db, rel).value.1)
  {
    match Observe(db, rel)
    case Failure(e) => Failure(e)
    case Success((rows, rel')) => Success((|rows|, rel'))
  }

  /** Ruby's `Array#[]` with an integer: negative indices count from the end; out of range is nil. */
  function Index<T>(s: seq<T>, i: int): (r: Option<T>)
    ensures r.Some? <==> -|s| <= i < |s|
    ensures 0 <= i < |s| ==> r == Some(s[i])
    ensures -|s| <= i < 0 ==> r == Some(s[|s| + i])
  {
    if 0 <= i < |s| then Some(s[i])
    else if -|s| <= i < 0 then Some(s[|s| + i])
    else None
  }

  /** `[]` and `first`, forwarded to the cached result. */
  function At(db: Db, rel: Relation, i: int): (r: Result<(Option<Record>, Relation)>)
    ensures r.Success? <==> Observe(db, rel).Success?
    ensures r.Success? ==> r.value == (Index(Observe(db, rel).value.0, i), Observe(db, rel).value.1)
  {
    match Observe(db, rel)
    case Failure(e) => Failure(e)
    case Success((rows, rel')) => Success((Index(rows, i), rel'))
  }

  /** `first`: the element at index 0, or nil for an empty result. */
  function First(db: Db, rel: Relation): (r: Result<(Option<Record>, Relation)>)
    ensures r.Success? <==> Observe(db, rel).Success?
    ensures r.Success? ==>
      var rows := Observe(db, rel).value.0;
      r.value.0 == (if |rows| == 0 then None else Some(rows[0]))
    ensures r.Success? ==> r.value.1 == Observe(db, rel).value.1
  {
    At(db, rel, 0)
  }
}

=== FILE: records.dfy ===
/**
 * The record layer of `SQLObject`: records restricted to their table's
 * reflected columns, and `insert`, `update`, `save`, `find`, `all` and
 * `parse_all` as transitions over an abstract table store.
 */
module Records {
  import opened Wrappers
  import RubyHash

  type Column = string

  /** A column value as the SQLite driver hands it over: NULL, an integer or text. */
  datatype Value = Nil | Int(n: int) | Text(s: string)

  /** One stored row: column name to value. */
  type Row = map<Column, Value>

  /** One table: its reflected column list and its rows in scan order. */
  datatype Table = Table(columns: seq<Column>, rows: seq<Row>)

  /** A record instance: its attribute store, holding only the columns assigned so far. */
  datatype Record = Record(attributes: map<Column, Value>)

  predicate Distinct(cs: seq<Column>)
  {
    forall i, j :: 0 <= i < j < |cs| ==> cs[i] != cs[j]
  }

  /** The primary key of a stored row (NULL when the row lacks one). */
  function IdOf(row: Row): Value
  {
    if "id" in row then row["id"] else Nil
  }

  /** A row holds exactly the table's columns and an integer primary key. */
  ghost predicate RowFits(columns: seq<Column>, row: Row)
  {
    && (forall c :: c in row <==> c in columns)
    && IdOf(row).Int?
  }

  /** Both keys are integers and the first is the smaller. */
  predicate Below(a: Value, b: Value)
  {
    a.Int? && b.Int? && a.n < b.n
  }

  /**
   * The store invariant SQLite keeps for a table with an INTEGER PRIMARY
   * KEY `id`: the key is the rowid, so rows are unique by id and a scan
   * visits them in ascending id order.
   */
  ghost predicate Valid(t: Table)
  {
    && Distinct(t.columns)
    && "id" in t.columns
    && (forall i :: 0 <= i < |t.rows| ==> RowFits(t.columns, t.rows[i]))
    && (forall i, j :: 0 <= i < j < |t.rows| ==> Below(IdOf(t.rows[i]), IdOf(t.rows[j])))
  }

  /** A record whose attribute store only mentions known columns. */
  predicate Fits(columns: seq<Column>, r: Record)
  {
    forall c | c in r.attributes :: c in columns
  }

  // ---------------------------------------------------------------------------
  // Attributes

  /** The generated reader for a known column: an unassigned column reads as nil. */
  function Attr(r: Record, c: Column): Value
  {
    if c in r.attributes then r.attributes[c] else Nil
  }

  /** Calling the reader `c`; a column without a generated reader raises NoMethodError. */
  function Read(columns: seq<Column>, r: Record, c: Column): (v: Result<Value>)
    ensures v.Success? <==> c in columns
    ensures v.Success? ==> v.value == Attr(r, c)
  {
    if c in columns then Success(Attr(r, c)) else Failure(NoMethod(c))
  }

  /** Calling the writer `c=`; only reflected columns have one. */
  function Write(columns: seq<Column>, r: Record, c: Column, v: Value): (w: Result<Record>)
    ensures w.Success? <==> c in columns
    ensures w.Success? ==> Attr(w.value, c) == v
    ensures w.Success? ==> forall d :: d != c ==> Attr(w.value, d) == Attr(r, d)
    ensures w.Success? && Fits(columns, r) ==> Fits(columns, w.value)
  {
    if c in columns then Success(Record(r.attributes[c := v])) else Failure(NoMethod(c + "="))
  }

  /** The keys of a constructor argument, as a set. */
  function KeySet(params: RubyHash.Hash<Column, Value>): set<Column>
  {
    set i | 0 <= i < |params| :: params[i].0
  }

  /**
   * The constructor's loop: assign each pair in order through its writer,
   * raising on the first key that is not a column.
   */
  function Assign(columns: seq<Column>, r: Record, params: RubyHash.Hash<Column, Value>): (res: Result<Record>)
    ensures res.Failure? <==> exists i :: 0 <= i < |params| && params[i].0 !in columns
    ensures res.Failure? ==>
      exists i :: && 0 <= i < |params|
                  && params[i].0 !in columns
                  && res.error == UnknownAttribute(params[i].0)
                  && forall j :: 0 <= j < i ==> params[j].0 in columns
    ensures res.Success? ==> res.value.attributes.Keys == r.attributes.Keys + KeySet(params)
    ensures res.Success? ==> forall c :: c !in KeySet(params) ==> Attr(res.value, c) == Attr(r, c)
    ensures res.Success? && RubyHash.DistinctKeys(params) ==>
      forall i :: 0 <= i < |params| ==> Attr(res.value, params[i].0) == params[i].1
    decreases |params|
  {
    if |params| == 0 then Success(r)
    else if params[0].0 !in columns then Failure(UnknownAttribute(params[0].0))
    else
      var res := Assign(columns, Record(r.attributes[params[0].0 := params[0].1]), params[1..]);
      KeySetCons(params);
      if res.Failure? then
        FirstUnknownCons(columns, params, res.error);
        res
      else
        res
  }

  lemma KeySetCons(params: RubyHash.Hash<Column, Value>)
    requires |params| > 0
    ensures KeySet(params) == {params[0].0} + KeySet(params[1..])
  {
    forall c | c in KeySet(params) ensures c in {params[0].0} + KeySet(params[1..]) {
      var i :| 0 <= i < |params| && params[i].0 == c;
      if i > 0 { assert params[1..][i - 1].0 == c; }
    }
  }

  /** A first unknown key of the tail, after a known head, is the first unknown key of the whole. */
  lemma FirstUnknownCons(columns: seq<Column>, params: RubyHash.Hash<Column, Value>, e: Error)
    requires |params| > 0 && params[0].0 in columns
    requires exists i :: && 0 <= i < |params[1..]|
                         && params[1..][i].0 !in columns
                         && e == UnknownAttribute(params[1..][i].0)
                         && forall j :: 0 <= j < i ==> params[1..][j].0 in columns
    ensures exists i :: && 0 <= i < |params|
                        && params[i].0 !in columns
                        && e == UnknownAttribute(params[i].0)
                        && forall j :: 0 <= j < i ==> params[j].0 in columns
  {
    var i :| && 0 <= i < |params[1..]|
             && params[1..][i].0 !in columns
             && e == UnknownAttribute(params[1..][i].0)
             && forall j :: 0 <= j < i ==> params[1..][j].0 in columns;
    forall j | 0 <= j < i + 1 ensures params[j].0 in columns {
      if j > 0 { assert params[j].0 == params[1..][j - 1].0; }
    }
    assert params[i + 1] == params[1..][i];
  }

  /**
   * `SQLObject.new(params)`: every key must be a reflected column, otherwise
   * construction raises "unknown attribute '<key>'" naming the first
   * offending key and no record is produced.
   */
  function New(columns: seq<Column>, params: RubyHash.Hash<Column, Value>): (r: Result<Record>)
    ensures r.Failure? <==> exists i :: 0 <= i < |params| && params[i].0 !in columns
    ensures r.Failure? ==>
      exists i :: && 0 <= i < |params|
                  && params[i].0 !in columns
                  && Message(r.error) == "unknown attribute '" + params[i].0 + "'"
                  && forall j :: 0 <= j < i ==> params[j].0 in columns
    ensures r.Success? ==> r.value.attributes.Keys == KeySet(params) && Fits(columns, r.value)
    ensures r.Success? && RubyHash.DistinctKeys(params) ==>
      forall i :: 0 <= i < |params| ==> Attr(r.value, params[i].0) == params[i].1
  {
    Assign(columns, Record(map[]), params)
  }

  /** `attribute_values`: one value per column, in column order, nil where unset. */
  function AttributeValues(columns: seq<Column>, r: Record): (vs: seq<Value>)
    ensures |vs| == |columns|
    ensures forall i :: 0 <= i < |columns| ==> vs[i] == Attr(r, columns[i])
  {
    if |columns| == 0 then [] else [Attr(r, columns[0])] + AttributeValues(columns[1..], r)
  }

  /** Pairs each column with the value at the same position. */
  function Zip(columns: seq<Column>, vs: seq<Value>): (h: RubyHash.Hash<Column, Value>)
    requires |vs| == |columns|
    ensures |h| == |columns|
    ensures forall i :: 0 <= i < |h| ==> h[i] == (columns[i], vs[i])
  {
    if |columns| == 0 then [] else [(columns[0], vs[0])] + Zip(columns[1..], vs[1..])
  }

  /**
   * Constructing a record from column-ordered values and reading its
   * `attribute_values` gives those values back.
   */
  lemma AttributeValuesRoundTrip(columns: seq<Column>, vs: seq<Value>)
    requires Distinct(columns) && |vs| == |columns|
    ensures New(columns, Zip(columns, vs)).Success?
    ensures AttributeValues(columns, New(columns, Zip(columns, vs)).value) == vs
  {
    var h := Zip(columns, vs);
    assert forall i :: 0 <= i < |h| ==> h[i].0 in columns;
    assert RubyHash.DistinctKeys(h);
  }

  // ---------------------------------------------------------------------------
  // Reading the store

  /** The hash a stored row arrives as: its columns in table order. */
  function RowHash(columns: seq<Column>, row: Row): (h: RubyHash.Hash<Column, Value>)
    requires forall c :: c in columns ==> c in row
    ensures |h| == |columns|
    ensures forall i :: 0 <= i < |h| ==> h[i] == (columns[i], row[columns[i]])
  {
    Zip(columns, seq(|columns|, i requires 0 <= i < |columns| => row[columns[i]]))
  }

  /** The record `parse_all` makes of one stored row. */
  function FromRow(row: Row): Record
  {
    Record(row)
  }

  /** Constructing a record from a stored row succeeds and reproduces the row. */
  lemma ParseRow(columns: seq<Column>, row: Row)
    requires Distinct(columns) && RowFits(columns, row)
    ensures New(columns, RowHash(columns, row)) == Success(FromRow(row))
  {
    var h := RowHash(columns, row);
    RowHashParses(columns, row);
    RowHashKeys(columns, row);
    var r := New(columns, h).value;
    assert r.attributes.Keys == row.Keys;
    forall c | c in row
      ensures r.attributes[c] == row[c]
    {
      assert c in columns;
      var i :| 0 <= i < |columns| && columns[i] == c;
      assert h[i] == (c, row[c]);
      assert Attr(r, h[i].0) == h[i].1;
    }
    assert r.attributes == row;
    assert r == FromRow(row);
  }

  /** A stored row's hash is a valid constructor argument. */
  lemma RowHashParses(columns: seq<Column>, row: Row)
    requires Distinct(columns) && forall c :: c in columns ==> c in row
    ensures RubyHash.DistinctKeys(RowHash(columns, row))
    ensures New(columns, RowHash(columns, row)).Success?
  {
    var h := RowHash(columns, row);
    assert forall i :: 0 <= i < |h| ==> h[i].0 in columns;
  }

  /** A stored row's hash has exactly the row's columns as keys. */
  lemma RowHashKeys(columns: seq<Column>, row: Row)
    requires RowFits(columns, row)
    ensures KeySet(RowHash(columns, row)) == row.Keys
  {
    var h := RowHash(columns, row);
    forall c | c in row ensures c in KeySet(h) {
      var i :| 0 <= i < |columns| && columns[i] == c;
      assert h[i].0 == c;
    }
  }


  /** `parse_all`: one record per hash, in order; the first bad hash raises. */
  function ParseAll(columns: seq<Column>, hashes: seq<RubyHash.Hash<Column, Value>>): (r: Result<seq<Record>>)
    ensures r.Success? <==> forall i :: 0 <= i < |hashes| ==> New(columns, hashes[i]).Success?
    ensures r.Success? ==> |r.value| == |hashes|
    ensures r.Success? ==> forall i :: 0 <= i < |hashes| ==> New(columns, hashes[i]) == Success(r.value[i])
  {
    if |hashes| == 0 then Success([])
    else
      var tail := hashes[1..];
      assert forall i :: 1 <= i < |hashes| ==> hashes[i] == tail[i - 1];
      match New(columns, hashes[0])
      case Failure(e) => Failure(e)
      case Success(first) =>
        match ParseAll(columns, tail)
        case Failure(e) => Failure(e)
        case Success(rest) => Success([first] + rest)
  }

  /** `all`: every stored row as a record, in scan order. */
  function All(t: Table): (rs: seq<Record>)
    ensures |rs| == |t.rows|
    ensures forall i :: 0 <= i < |t.rows| ==> rs[i].attributes == t.rows[i]
  {
    seq(|t.rows|, i requires 0 <= i < |t.rows| => FromRow(t.rows[i]))
  }

  /** `find(id)`: the first row whose primary key is `id`, or nil when there is none. */
  function Find(t: Table, id: int): (r: Option<Record>)
    ensures r.None? <==> forall i :: 0 <= i < |t.rows| ==> IdOf(t.rows[i]) != Int(id)
    ensures r.Some? ==>
      exists i :: && 0 <= i < |t.rows|
                  && IdOf(t.rows[i]) == Int(id)
                  && r.value == FromRow(t.rows[i])
                  && forall j :: 0 <= j < i ==> IdOf(t.rows[j]) != Int(id)
    decreases |t.rows|
  {
    if |t.rows| == 0 then None
    else if IdOf(t.rows[0]) == Int(id) then Some(FromRow(t.rows[0]))
    else
      var r := Find(t.(rows := t.rows[1..]), id);
      assert forall i :: 1 <= i < |t.rows| ==> t.rows[i] == t.rows[1..][i - 1];
      r
  }

  /** `find` returns the row at `i` when it is the first with that id. */
  lemma {:induction false} FindFirst(t: Table, i: int, id: int)
    requires 0 <= i < |t.rows| && IdOf(t.rows[i]) == Int(id)
    requires forall j :: 0 <= j < i ==> IdOf(t.rows[j]) != Int(id)
    ensures Find(t, id) == Some(FromRow(t.rows[i]))
    decreases i
  {
    if i > 0 {
      var t1 := t.(rows := t.rows[1..]);
      assert IdOf(t.rows[0]) != Int(id);
      assert t1.rows[i - 1] == t.rows[i];
      FindFirst(t1, i - 1, id);
    }
  }

  /** In a valid table the row `find` returns is the only one with that id. */
  lemma FindUnique(t: Table, i: int)
    requires Valid(t) && 0 <= i < |t.rows|
    ensures Find(t, IdOf(t.rows[i]).n) == Some(FromRow(t.rows[i]))
  {
    FindFirst(t, i, IdOf(t.rows[i]).n);
  }

  // ---------------------------------------------------------------------------
  // Writing the store

  /** The largest integer primary key among the rows, if any. */
  function MaxId(rows: seq<Row>): (m: Option<int>)
    ensures m.None? <==> forall i :: 0 <= i < |rows| ==> !IdOf(rows[i]).Int?
    ensures m.Some? ==> forall i :: 0 <= i < |rows| && IdOf(rows[i]).Int? ==> IdOf(rows[i]).n <= m.value
    ensures m.Some? ==> exists i :: 0 <= i < |rows| && IdOf(rows[i]) == Int(m.value)
  {
    if |rows| == 0 then None
    else
      var rest := MaxId(rows[1..]);
      assert forall i :: 1 <= i < |rows| ==> rows[i] == rows[1..][i - 1];
      match IdOf(rows[0])
      case Int(n) =>
        if rest.Some? && rest.value > n then rest else Some(n)
      case _ => rest
  }

  /** The rowid SQLite assigns to a row inserted with a NULL key: one past the largest, or 1. */
  function FreshId(rows: seq<Row>): (id: int)
    ensures forall i :: 0 <= i < |rows| && IdOf(rows[i]).Int? ==> IdOf(rows[i]).n < id
  {
    match MaxId(rows)
    case None => 1
    case Some(m) => m + 1
  }

  /** The row `insert`/`update` write: every column bound to the record's value, NULL where unset. */
  function RowOf(columns: seq<Column>, r: Record): (row: Row)
    ensures forall c :: c in row <==> c in columns
    ensures forall c :: c in columns ==> row[c] == Attr(r, c)
    ensures forall i :: 0 <= i < |columns| ==> row[columns[i]] == AttributeValues(columns, r)[i]
  {
    map c | c in columns :: Attr(r, c)
  }

  /** Reading back a written row gives the values that were bound. */
  lemma ReadBack(columns: seq<Column>, r: Record)
    ensures AttributeValues(columns, FromRow(RowOf(columns, r))) == AttributeValues(columns, r)
  {
    var row := RowOf(columns, r);
    forall j | 0 <= j < |columns|
      ensures Attr(FromRow(row), columns[j]) == Attr(r, columns[j])
    {
      assert row[columns[j]] == AttributeValues(columns, r)[j];
    }
  }

  predicate IdTaken(rows: seq<Row>, n: int)
  {
    exists i :: 0 <= i < |rows| && IdOf(rows[i]) == Int(n)
  }

  /** Where a row with id `n` goes in scan order: before the first row with a larger id. */
  function Slot(rows: seq<Row>, n: int): (p: nat)
    ensures p <= |rows|
    ensures forall i :: 0 <= i < p ==> !Below(Int(n), IdOf(rows[i]))
    ensures p < |rows| ==> Below(Int(n), IdOf(rows[p]))
  {
    if |rows| == 0 || Below(Int(n), IdOf(rows[0])) then 0
    else
      assert forall i :: 1 <= i < |rows| ==> rows[i] == rows[1..][i - 1];
      1 + Slot(rows[1..], n)
  }

  /** `rows` with `row`, whose id is `n`, put in its scan-order slot. */
  function Place(rows: seq<Row>, row: Row, n: int): (r: seq<Row>)
    ensures |r| == |rows| + 1
    ensures r == rows[..Slot(rows, n)] + [row] + rows[Slot(rows, n)..]
  {
    rows[..Slot(rows, n)] + [row] + rows[Slot(rows, n)..]
  }

  /**
   * `insert`: adds a row holding `attribute_values` in column order, in
   * its rowid slot, and sets the instance's `id` from the last inserted
   * rowid. A NULL key gets a fresh rowid, larger than every other, so its
   * row comes last; an explicit key already in use violates the primary
   * key; a key that is not an integer is a datatype mismatch. A class
   * whose table has no `id` column has no `id=` writer, so setting the id
   * raises NoMethodError.
   */
  function Insert(t: Table, r: Record): (res: Result<(Table, Record)>)
    ensures res.Success? <==>
      && "id" in t.columns
      && (Attr(r, "id").Nil? || (Attr(r, "id").Int? && !IdTaken(t.rows, Attr(r, "id").n)))
    ensures "id" !in t.columns ==> res == Failure(NoMethod("id="))
    ensures res.Success? ==>
      var (t', saved) := res.value;
      && t'.columns == t.columns
      && |t'.rows| == |t.rows| + 1
      && Attr(saved, "id").Int?
      && (Attr(r, "id").Int? ==> Attr(saved, "id") == Attr(r, "id"))
      && (Attr(r, "id").Nil? ==> !IdTaken(t.rows, Attr(saved, "id").n))
      && (forall c :: c != "id" ==> Attr(saved, c) == Attr(r, c))
      && var p := Slot(t.rows, Attr(saved, "id").n);
         t'.rows == t.rows[..p] + [RowOf(t.columns, saved)] + t.rows[p..]
    ensures res.Success? && Attr(r, "id").Nil? ==>
      res.value.0.rows == t.rows + [RowOf(t.columns, res.value.1)]
  {
    if "id" !in t.columns then Failure(NoMethod("id="))
    else match Attr(r, "id")
    case Nil =>
      var n := FreshId(t.rows);
      var saved := Record(r.attributes["id" := Int(n)]);
      assert Slot(t.rows, n) == |t.rows|;
      assert t.rows[..|t.rows|] == t.rows;
      Success((t.(rows := Place(t.rows, RowOf(t.columns, saved), n)), saved))
    case Int(n) =>
      if IdTaken(t.rows, n) then Failure(Driver("UNIQUE constraint failed: id"))
      else Success((t.(rows := Place(t.rows, RowOf(t.columns, r), n)), r))
    case Text(_) => Failure(Driver("datatype mismatch"))
  }

  /** `insert` keeps the store valid: the new row lands between the smaller and the larger ids. */
  lemma InsertValid(t: Table, r: Record)
    requires Valid(t) && Insert(t, r).Success?
    ensures Valid(Insert(t, r).value.0)
  {
    var (t', saved) := Insert(t, r).value;
    var n := Attr(saved, "id").n;
    var p := Slot(t.rows, n);
    var row := RowOf(t.columns, saved);
    assert IdOf(row) == Int(n);
    assert !IdTaken(t.rows, n);
    forall i | 0 <= i < p ensures Below(IdOf(t.rows[i]), Int(n)) {
      assert RowFits(t.columns, t.rows[i]);
      assert IdOf(t.rows[i]) != Int(n);
    }
    forall i | p <= i < |t.rows| ensures Below(Int(n), IdOf(t.rows[i])) {
      if i > p {
        assert Below(IdOf(t.rows[p]), IdOf(t.rows[i]));
      }
    }
    InsertedOrder(t.rows, row, p, t'.rows);
  }

  /**
   * Putting a row between the rows with smaller and larger ids keeps the
   * ids ascending.
   */
  lemma InsertedOrder(rows: seq<Row>, row: Row, p: nat, rows': seq<Row>)
    requires p <= |rows| && rows' == rows[..p] + [row] + rows[p..]
    requires forall i, j :: 0 <= i < j < |rows| ==> Below(IdOf(rows[i]), IdOf(rows[j]))
    requires forall i :: 0 <= i < p ==> Below(IdOf(rows[i]), IdOf(row))
    requires forall i :: p <= i < |rows| ==> Below(IdOf(row), IdOf(rows[i]))
    ensures forall i, j :: 0 <= i < j < |rows'| ==> Below(IdOf(rows'[i]), IdOf(rows'[j]))
  {
    assert forall i :: 0 <= i < p ==> rows'[i] == rows[i];
    assert rows'[p] == row;
    assert forall i :: p < i < |rows'| ==> rows'[i] == rows[i - 1];
  }

  /**
   * After `insert` the id is set, the table has one more row, and
   * `find(id)` returns a record whose `attribute_values` are the ones bound.
   */
  lemma InsertThenFind(t: Table, r: Record)
    requires Valid(t) && Insert(t, r).Success?
    ensures var (t', saved) := Insert(t, r).value;
      && Attr(saved, "id").Int?
      && |All(t')| == |All(t)| + 1
      && Find(t', Attr(saved, "id").n).Some?
      && AttributeValues(t.columns, Find(t', Attr(saved, "id").n).value) == AttributeValues(t.columns, saved)
  {
    var (t', saved) := Insert(t, r).value;
    var p := Slot(t.rows, Attr(saved, "id").n);
    InsertValid(t, r);
    assert t'.rows[p] == RowOf(t.columns, saved);
    assert IdOf(t'.rows[p]) == Attr(saved, "id");
    FindUnique(t', p);
    ReadBack(t.columns, saved);
  }

  /**
   * `update`: every row whose id equals the instance's id is rewritten with
   * `attribute_values` in column order; a NULL id matches no row. Without
   * an `id` column there is no `id` reader, and reading it raises before
   * any SQL runs.
   */
  function Update(t: Table, r: Record): (res: Result<Table>)
    ensures res.Success? <==> "id" in t.columns
    ensures "id" !in t.columns ==> res == Failure(NoMethod("id"))
    ensures res.Success? ==>
      var t' := res.value;
      && t'.columns == t.columns && |t'.rows| == |t.rows|
      && (forall i :: 0 <= i < |t.rows| && IdOf(t.rows[i]) != Attr(r, "id") ==> t'.rows[i] == t.rows[i])
      && (Attr(r, "id").Nil? ==> t' == t)
      && (forall i :: 0 <= i < |t.rows| && IdOf(t.rows[i]) == Attr(r, "id") && !Attr(r, "id").Nil? ==>
            t'.rows[i] == RowOf(t.columns, r))
  {
    if "id" !in t.columns then Failure(NoMethod("id"))
    else
      var id := Attr(r, "id");
      var rows := seq(|t.rows|, i requires 0 <= i < |t.rows| =>
        if !id.Nil? && IdOf(t.rows[i]) == id then RowOf(t.columns, r) else t.rows[i]);
      assert id.Nil? ==> rows == t.rows;
      Success(t.(rows := rows))
  }

  /** `update` keeps every primary key and the store's validity. */
  lemma UpdateValid(t: Table, r: Record)
    requires Valid(t) && Attr(r, "id").Int?
    ensures Update(t, r).Success?
    ensures forall i :: 0 <= i < |t.rows| ==> IdOf(Update(t, r).value.rows[i]) == IdOf(t.rows[i])
    ensures Valid(Update(t, r).value)
  {
    var t' := Update(t, r).value;
    var written := RowOf(t.columns, r);
    assert IdOf(written) == Attr(r, "id");
    forall i | 0 <= i < |t.rows|
      ensures IdOf(t'.rows[i]) == IdOf(t.rows[i]) && RowFits(t.columns, t'.rows[i])
    {
      if IdOf(t.rows[i]) == Attr(r, "id") {
        assert t'.rows[i] == written;
      }
    }
  }

  /** After `update`, `find` on the instance's id sees the rewritten values. */
  lemma UpdateThenFind(t: Table, r: Record, n: int)
    requires Valid(t) && Attr(r, "id") == Int(n) && IdTaken(t.rows, n)
    ensures Update(t, r).Success? && Find(Update(t, r).value, n).Some?
    ensures AttributeValues(t.columns, Find(Update(t, r).value, n).value) == AttributeValues(t.columns, r)
  {
    var t' := Update(t, r).value;
    UpdateValid(t, r);
    var i :| 0 <= i < |t.rows| && IdOf(t.rows[i]) == Int(n);
    assert t'.rows[i] == RowOf(t.columns, r);
    assert IdOf(t'.rows[i]) == Int(n);
    FindUnique(t', i);
    ReadBack(t.columns, r);
  }

  /**
   * `save`: `insert` when the id is nil, `update` otherwise. Reading the
   * id comes first, so without an `id` column it raises before either.
   */
  function Save(t: Table, r: Record): (res: Result<(Table, Record)>)
    ensures "id" !in t.columns ==> res == Failure(NoMethod("id"))
    ensures "id" in t.columns && Attr(r, "id").Nil? ==> res == Insert(t, r)
    ensures "id" in t.columns && !Attr(r, "id").Nil? ==> res == Success((Update(t, r).value, r))
  {
    if "id" !in t.columns then Failure(NoMethod("id"))
    else if Attr(r, "id").Nil? then Insert(t, r)
    else Success((Update(t, r).value, r))
  }

  /**
   * Saving a new record inserts it and assigns an id; saving the saved
   * record again updates in place: same id, same number of rows.
   */
  lemma SaveTwice(t: Table, r: Record)
    requires Valid(t) && Attr(r, "id").Nil?
    ensures Save(t, r).Success?
    ensures var (t1, r1) := Save(t, r).value;
      && |t1.rows| == |t.rows| + 1
      && Attr(r1, "id").Int?
      && Save(t1, r1) == Success((Update(t1, r1).value, r1))
      && |Save(t1, r1).value.0.rows| == |t1.rows|
      && Find(Save(t1, r1).value.0, Attr(r1, "id").n).Some?
  {
    var (t1, r1) := Save(t, r).value;
    InsertValid(t, r);
    assert IdTaken(t1.rows, Attr(r1, "id").n) by {
      assert IdOf(t1.rows[|t.rows|]) == Attr(r1, "id");
    }
    UpdateValid(t1, r1);
    UpdateThenFind(t1, r1, Attr(r1, "id").n);
  }
}

=== FILE: routing.dfy ===
/**
 * `Route` and `Router`: routes kept in insertion order, first-match
 * lookup on path pattern and downcased method, and dispatch to the
 * matched controller action or a 404.
 */
module Routing {
  import opened Wrappers
  import opened Nodes
  import opened Controller

  /** A route: a path pattern, a method symbol, a controller class and an action name. */
  datatype Route<P, C> = Route(pattern: P, verb: string, controllerClass: C, actionName: string)

  /** The regular-expression engine: whether a pattern matches a path, and its named captures. */
  datatype Matcher<!P> = Matcher(matches: (P, string) -> bool, captures: (P, string) -> map<string, string>)

  /** The controller classes: each action, and the view each action renders by default. */
  datatype App<!C> = App(
    actions: (C, string) -> (Controller -> Result<Controller>),
    templates: (C, string) -> (Controller -> string))

  /** `String#downcase` on one character (ASCII letters only). */
  function DowncaseChar(ch: char): (r: char)
    ensures 'A' <= ch <= 'Z' ==> 'a' <= r <= 'z'
    ensures !('A' <= ch <= 'Z') ==> r == ch
  {
    if 'A' <= ch <= 'Z' then (ch as int - 'A' as int + 'a' as int) as char else ch
  }

  function Downcase(s: string): (r: string)
    ensures |r| == |s|
    ensures forall i :: 0 <= i < |s| ==> r[i] == DowncaseChar(s[i])
  {
    seq(|s|, i requires 0 <= i < |s| => DowncaseChar(s[i]))
  }

  /** Downcasing twice is downcasing once, and lower-case text is left as is. */
  lemma DowncaseIdempotent(s: string)
    ensures Downcase(Downcase(s)) == Downcase(s)
    ensures (forall i :: 0 <= i < |s| ==> !('A' <= s[i] <= 'Z')) ==> Downcase(s) == s
  {
  }

  /**
   * `Route#matches?`: the pattern matches the path and the method is the
   * downcased request method, so a route whose method has an upper-case
   * letter never matches.
   */
  predicate Matches<P, C>(m: Matcher<P>, route: Route<P, C>, req: Request): (b: bool)
    ensures b ==> m.matches(route.pattern, req.path)
    ensures b ==> |route.verb| == |req.verb| && forall i :: 0 <= i < |route.verb| ==> !('A' <= route.verb[i] <= 'Z')
    ensures b ==> Downcase(route.verb) == route.verb
  {
    DowncaseIdempotent(req.verb);
    m.matches(route.pattern, req.path) && route.verb == Downcase(req.verb)
  }

  /** `add_route`: appends one route; the earlier ones stay in order. */
  function AddRoute<P, C>(routes: seq<Route<P, C>>, pattern: P, verb: string, cls: C, action: string)
    : (r: seq<Route<P, C>>)
    ensures |r| == |routes| + 1
    ensures r[..|routes|] == routes
    ensures r[|routes|] == Route(pattern, verb, cls, action)
  {
    routes + [Route(pattern, verb, cls, action)]
  }

  /** The four route helpers `get`, `post`, `put` and `delete`. */
  datatype Verb = Get | Post | Put | Delete

  function VerbName(v: Verb): (s: string)
    ensures Downcase(s) == s
  {
    var s := match v
      case Get => "get"
      case Post => "post"
      case Put => "put"
      case Delete => "delete";
    DowncaseIdempotent(s);
    s
  }

  /** `get pattern, controller, action` and its siblings: `add_route` with that method. */
  function Draw<P, C>(routes: seq<Route<P, C>>, v: Verb, pattern: P, cls: C, action: string)
    : (r: seq<Route<P, C>>)
    ensures r == AddRoute(routes, pattern, VerbName(v), cls, action)
  {
    AddRoute(routes, pattern, VerbName(v), cls, action)
  }

  /** A route drawn with a helper answers the request method in any letter case. */
  lemma DrawnRouteMatches<P, C>(m: Matcher<P>, routes: seq<Route<P, C>>, v: Verb, pattern: P, cls: C, action: string, req: Request)
    requires m.matches(pattern, req.path) && Downcase(req.verb) == VerbName(v)
    ensures Matches(m, Draw(routes, v, pattern, cls, action)[|routes|], req)
  {
  }

  /** `match`: the first route, in insertion order, that matches the request. */
  function Match<P, C>(m: Matcher<P>, routes: seq<Route<P, C>>, req: Request): (r: Option<Route<P, C>>)
    ensures r.None? <==> forall i :: 0 <= i < |routes| ==> !Matches(m, routes[i], req)
    ensures r.Some? ==>
      exists i :: && 0 <= i < |routes|
                  && Matches(m, routes[i], req)
                  && r.value == routes[i]
                  && forall j :: 0 <= j < i ==> !Matches(m, routes[j], req)
    decreases |routes|
  {
    if |routes| == 0 then None
    else if Matches(m, routes[0], req) then Some(routes[0])
    else
      assert forall i :: 1 <= i < |routes| ==> routes[i] == routes[1..][i - 1];
      Match(m, routes[1..], req)
  }

  /**
   * Adding a route never changes a request that already matched; an
   * unmatched request matches the new route exactly when it matches it.
   */
  lemma {:induction false} MatchAfterAdd<P, C>(m: Matcher<P>, routes: seq<Route<P, C>>, pattern: P, verb: string, cls: C, action: string, req: Request)
    ensures var routes' := AddRoute(routes, pattern, verb, cls, action);
      Match(m, routes', req) ==
        if Match(m, routes, req).Some? then Match(m, routes, req)
        else if Matches(m, Route(pattern, verb, cls, action), req) then Some(Route(pattern, verb, cls, action))
        else None
    decreases |routes|
  {
    var routes' := AddRoute(routes, pattern, verb, cls, action);
    if |routes| > 0 {
      assert routes'[1..] == AddRoute(routes[1..], pattern, verb, cls, action);
      MatchAfterAdd(m, routes[1..], pattern, verb, cls, action, req);
    } else {
      assert routes'[1..] == [];
    }
  }

  /** The route params: each named capture under its name as a string key. */
  function RouteParams<P, C>(m: Matcher<P>, route: Route<P, C>, req: Request): (ps: map<Key, Node>)
    ensures forall name :: Str(name) in ps <==> name in m.captures(route.pattern, req.path)
    ensures forall name :: name in m.captures(route.pattern, req.path) ==>
      ps[Str(name)] == Leaf(m.captures(route.pattern, req.path)[name])
    ensures forall k :: k in ps ==> k.Str?
  {
    var caps := m.captures(route.pattern, req.path);
    map name | name in caps :: Str(name) := Leaf(caps[name])
  }

  /** `Route#run`: builds the controller with the route params and invokes the action. */
  function Dispatch<P, C>(m: Matcher<P>, app: App<C>, route: Route<P, C>, req: Request, res: Response)
    : (r: Result<Controller>)
    ensures r.Success? <==>
      && NewController(req, res, RouteParams(m, route, req)).Success?
      && app.actions(route.controllerClass, route.actionName)(NewController(req, res, RouteParams(m, route, req)).value).Success?
    ensures r.Success? ==> AlreadyBuilt(r.value)
    ensures NewController(req, res, RouteParams(m, route, req)).Failure? ==>
      r == Failure(NewController(req, res, RouteParams(m, route, req)).error)
    ensures NewController(req, res, RouteParams(m, route, req)).Success? ==>
      r == InvokeAction(
        NewController(req, res, RouteParams(m, route, req)).value,
        app.actions(route.controllerClass, route.actionName),
        app.templates(route.controllerClass, route.actionName))
  {
    var c :- NewController(req, res, RouteParams(m, route, req));
    InvokeAction(c, app.actions(route.controllerClass, route.actionName), app.templates(route.controllerClass, route.actionName))
  }

  /**
   * A named capture of the matched route reaches the action's params
   * under its name, unless the query string or the body gives that name
   * at the top level, in which case the later source wins.
   */
  lemma RouteAddsToParams<P, C>(m: Matcher<P>, route: Route<P, C>, req: Request, res: Response, name: string)
    requires name in m.captures(route.pattern, req.path)
    requires NewController(req, res, RouteParams(m, route, req)).Success?
    requires Str(name) !in ParseSource(req.query).value && Str(name) !in ParseSource(req.body).value
    ensures ParamsGet(NewController(req, res, RouteParams(m, route, req)).value.params, name)
      == Some(Leaf(m.captures(route.pattern, req.path)[name]))
  {
    var ps := RouteParams(m, route, req);
    assert Str(name) in ps;
    assert NewController(req, res, ps).value.params.entries[Str(name)] == ps[Str(name)];
  }

  /** `Router#run`: 404 when no route matches, else the matched route's response. */
  function Run<P, C>(m: Matcher<P>, app: App<C>, routes: seq<Route<P, C>>, req: Request, res: Response)
    : (r: Result<Response>)
    ensures Match(m, routes, req).None? ==> r == Success(res.(status := 404))
    ensures Match(m, routes, req).Some? ==>
      var d := Dispatch(m, app, Match(m, routes, req).value, req, res);
      && (r.Success? <==> d.Success?)
      && (r.Success? ==> r.value == d.value.res)
  {
    match Match(m, routes, req)
    case None => Success(res.(status := 404))
    case Some(route) =>
      var c :- Dispatch(m, app, route, req, res);
      Success(c.res)
  }
}

=== FILE: ruby_hash.dfy ===
/**
 * Ruby's insertion-ordered Hash, as a sequence of key/value pairs.
 * Used where the source depends on the order of a Hash: the attributes
 * handed to a record constructor and the criteria of a query relation.
 */
module RubyHash {
  import opened Wrappers

  type Hash<K, V> = seq<(K, V)>

  /** No key occurs twice: the shape every Ruby Hash has. */
  predicate DistinctKeys<K(==), V(==)>(h: Hash<K, V>)
  {
    forall i, j :: 0 <= i < j < |h| ==> h[i].0 != h[j].0
  }

  function Keys<K, V>(h: Hash<K, V>): (ks: seq<K>)
    ensures |ks| == |h|
    ensures forall i :: 0 <= i < |h| ==> ks[i] == h[i].0
  {
    if |h| == 0 then [] else [h[0].0] + Keys(h[1..])
  }

  function Values<K, V>(h: Hash<K, V>): (vs: seq<V>)
    ensures |vs| == |h|
    ensures forall i :: 0 <= i < |h| ==> vs[i] == h[i].1
  {
    if |h| == 0 then [] else [h[0].1] + Values(h[1..])
  }

  predicate HasKey<K(==), V(==)>(h: Hash<K, V>, k: K)
  {
    exists i :: 0 <= i < |h| && h[i].0 == k
  }

  /** `h[k]`: the value of the first pair with key `k`, or None. */
  function Get<K(==), V(==)>(h: Hash<K, V>, k: K): (r: Option<V>)
    ensures r.None? <==> !HasKey(h, k)
    ensures r.Some? ==> exists i :: 0 <= i < |h| && h[i] == (k, r.value)
  {
    if |h| == 0 then None
    else if h[0].0 == k then Some(h[0].1)
    else Get(h[1..], k)
  }

  /** `h[k] = v`: replaces the value in place when `k` is present, appends otherwise. */
  function Put<K(==), V(==)>(h: Hash<K, V>, k: K, v: V): (r: Hash<K, V>)
    ensures HasKey(h, k) ==> |r| == |h|
    ensures !HasKey(h, k) ==> r == h + [(k, v)]
    ensures forall i :: 0 <= i < |h| ==> r[i].0 == h[i].0
    ensures forall i :: 0 <= i < |h| && h[i].0 != k ==> r[i] == h[i]
  {
    if |h| == 0 then [(k, v)]
    else if h[0].0 == k then [(k, v)] + h[1..]
    else [h[0]] + Put(h[1..], k, v)
  }

  /** `a.merge(b)`: every pair of `b` put into `a`, left to right. */
  function Merge<K(==), V(==)>(a: Hash<K, V>, b: Hash<K, V>): (r: Hash<K, V>)
    ensures |a| <= |r|
    ensures forall i :: 0 <= i < |a| ==> r[i].0 == a[i].0
    decreases |b|
  {
    if |b| == 0 then a else Merge(Put(a, b[0].0, b[0].1), b[1..])
  }

  lemma {:induction false} PutGet<K, V>(h: Hash<K, V>, k: K, v: V, k': K)
    ensures Get(Put(h, k, v), k') == if k' == k then Some(v) else Get(h, k')
  {
    if |h| == 0 {
    } else if h[0].0 == k {
      assert Put(h, k, v)[1..] == h[1..];
    } else {
      PutGet(h[1..], k, v, k');
      assert Put(h, k, v)[1..] == Put(h[1..], k, v);
    }
  }

  lemma {:induction false} PutKeepsDistinct<K, V>(h: Hash<K, V>, k: K, v: V)
    requires DistinctKeys(h)
    ensures DistinctKeys(Put(h, k, v))
  {
    var r := Put(h, k, v);
    if !HasKey(h, k) {
      forall i, j | 0 <= i < j < |r|
        ensures r[i].0 != r[j].0
      {
        if j == |h| {
          assert r[i].0 == h[i].0;
        }
      }
    }
  }

  /**
   * The merged hash answers a lookup from `b` when `b` has the key and
   * from `a` otherwise: later keys win.
   */
  lemma {:induction false} MergeGet<K, V>(a: Hash<K, V>, b: Hash<K, V>, k: K)
    requires DistinctKeys(b)
    ensures Get(Merge(a, b), k) == if HasKey(b, k) then Get(b, k) else Get(a, k)
    decreases |b|
  {
    if |b| != 0 {
      MergeGet(Put(a, b[0].0, b[0].1), b[1..], k);
      PutGet(a, b[0].0, b[0].1, k);
      if b[0].0 == k {
        assert !HasKey(b[1..], k) by {
          forall i | 0 <= i < |b[1..]|
            ensures b[1..][i].0 != k
          {
            assert b[i + 1].0 != b[0].0;
          }
        }
      } else if HasKey(b, k) {
        var i :| 0 <= i < |b| && b[i].0 == k;
        assert b[1..][i - 1].0 == k;
      }
    }
  }

  lemma {:induction false} MergeKeepsDistinct<K, V>(a: Hash<K, V>, b: Hash<K, V>)
    requires DistinctKeys(a)
    ensures DistinctKeys(Merge(a, b))
    decreases |b|
  {
    if |b| != 0 {
      PutKeepsDistinct(a, b[0].0, b[0].1);
      MergeKeepsDistinct(Put(a, b[0].0, b[0].1), b[1..]);
    }
  }

  /** Every key of the merge comes from `a` or from `b`, and every key of either survives. */
  lemma MergeHasKey<K, V>(a: Hash<K, V>, b: Hash<K, V>, k: K)
    requires DistinctKeys(b)
    ensures HasKey(Merge(a, b), k) <==> HasKey(a, k) || HasKey(b, k)
  {
    MergeGet(a, b, k);
  }
}

=== FILE: sql_text.dfy ===
/**
 * The SQL text `insert`, `update` and a relation's `load` send to the
 * driver, with whitespace normalised, and the values they bind. The store
 * transitions in Records give their effect; this module states that each
 * statement carries exactly one `?` per bound value.
 */
module SqlText {
  import opened Records
  import RubyHash

  /** A statement and its positional bind values. */
  datatype Statement = Statement(sql: string, binds: seq<Value>)

  /** `parts.join(sep)`. */
  function Join(parts: seq<string>, sep: string): string
  {
    if |parts| == 0 then ""
    else if |parts| == 1 then parts[0]
    else parts[0] + sep + Join(parts[1..], sep)
  }

  /** The number of `?` placeholders in a piece of SQL text. */
  function Marks(s: string): nat
  {
    if |s| == 0 then 0 else (if s[0] == '?' then 1 else 0) + Marks(s[1..])
  }

  lemma {:induction false} MarksAppend(a: string, b: string)
    ensures Marks(a + b) == Marks(a) + Marks(b)
  {
    if |a| == 0 {
      assert a + b == b;
    } else {
      assert (a + b)[0] == a[0];
      assert (a + b)[1..] == a[1..] + b;
      MarksAppend(a[1..], b);
    }
  }

  /** Text without a `?` has no placeholder. */
  lemma {:induction false} MarksNone(s: string)
    requires '?' !in s
    ensures Marks(s) == 0
  {
    if |s| != 0 {
      assert s[0] != '?';
      assert forall i :: 0 <= i < |s[1..]| ==> s[1..][i] == s[i + 1];
      MarksNone(s[1..]);
    }
  }

  /** `<name> = ?` has exactly one placeholder. */
  lemma Binding(name: string)
    requires '?' !in name
    ensures Marks(name + " = ?") == 1
  {
    MarksNone(name + " = ");
    MarksAppend(name + " = ", "?");
    assert name + " = ?" == (name + " = ") + "?";
    assert Marks("?") == 1 by { assert "?"[1..] == ""; }
  }

  /** Joining mark-free parts by a mark-free separator gives no mark. */
  lemma {:induction false} MarksJoinNone(parts: seq<string>, sep: string)
    requires Marks(sep) == 0
    requires forall i :: 0 <= i < |parts| ==> Marks(parts[i]) == 0
    ensures Marks(Join(parts, sep)) == 0
  {
    if |parts| > 1 {
      var rest := parts[1..];
      assert forall i :: 0 <= i < |rest| ==> rest[i] == parts[i + 1];
      MarksJoinNone(rest, sep);
      MarksAppend(parts[0], sep);
      MarksAppend(parts[0] + sep, Join(rest, sep));
    }
  }

  /** Joining parts with one mark each by a mark-free separator gives one mark per part. */
  lemma {:induction false} MarksJoinOne(parts: seq<string>, sep: string)
    requires Marks(sep) == 0
    requires forall i :: 0 <= i < |parts| ==> Marks(parts[i]) == 1
    ensures Marks(Join(parts, sep)) == |parts|
  {
    if |parts| > 1 {
      var rest := parts[1..];
      assert forall i :: 0 <= i < |rest| ==> rest[i] == parts[i + 1];
      MarksJoinOne(rest, sep);
      MarksAppend(parts[0], sep);
      MarksAppend(parts[0] + sep, Join(rest, sep));
    }
  }


  /** A table or column name, interpolated into the text: it holds no `?`. */
  predicate Identifier(s: string)
  {
    '?' !in s
  }

  /** `insert into <table> (<c1, c2, …>) values (?, ?, …)` bound to `attribute_values`. */
  function InsertStatement(table: string, columns: seq<Column>, r: Record): (st: Statement)
    requires Identifier(table) && forall i :: 0 <= i < |columns| ==> Identifier(columns[i])
    ensures Marks(st.sql) == |st.binds| == |columns|
    ensures st.binds == AttributeValues(columns, r)
  {
    var names := Join(columns, ", ");
    var questions := Join(Placeholders(|columns|), ", ");
    InsertParts(columns);
    MarksNone(table);
    InsertTextMarks(table, names, questions);
    Statement(InsertText(table, names, questions), AttributeValues(columns, r))
  }

  function InsertText(table: string, names: string, questions: string): string
  {
    "insert into " + table + " (" + names + ") values (" + questions + ")"
  }

  /** The marks of an insert are those of its value list. */
  lemma InsertTextMarks(table: string, names: string, questions: string)
    requires Marks(table) == 0 && Marks(names) == 0
    ensures Marks(InsertText(table, names, questions)) == Marks(questions)
  {
    InsertKeywords();
    var s0 := "insert into " + table;
    MarksAppend("insert into ", table);
    var s1 := s0 + " (";
    MarksAppend(s0, " (");
    var s2 := s1 + names;
    MarksAppend(s1, names);
    var s3 := s2 + ") values (";
    MarksAppend(s2, ") values (");
    var s4 := s3 + questions;
    MarksAppend(s3, questions);
    MarksAppend(s4, ")");
  }

  /** The fixed text of an insert holds no placeholder. */
  lemma InsertKeywords()
    ensures Marks("insert into ") == 0 && Marks(" (") == 0 && Marks(") values (") == 0 && Marks(")") == 0
  {
    NoMarkInsertInto();
    NoMarkOpen();
    NoMarkValues();
    NoMarkClose();
  }

  lemma NoMarkInsertInto() ensures Marks("insert into ") == 0 { MarksNone("insert into "); }
  lemma NoMarkOpen() ensures Marks(" (") == 0 { MarksNone(" ("); }
  lemma NoMarkValues() ensures Marks(") values (") == 0 { MarksNone(") values ("); }
  lemma NoMarkClose() ensures Marks(")") == 0 { MarksNone(")"); }

  /** `["?"] * n`. */
  function Placeholders(n: nat): (ps: seq<string>)
    ensures |ps| == n && forall i :: 0 <= i < n ==> ps[i] == "?"
  {
    seq(n, _ => "?")
  }

  /** The column list of an insert holds no placeholder; its value list holds one per column. */
  lemma InsertParts(columns: seq<Column>)
    requires forall i :: 0 <= i < |columns| ==> Identifier(columns[i])
    ensures Marks(Join(columns, ", ")) == 0
    ensures Marks(Join(Placeholders(|columns|), ", ")) == |columns|
  {
    var marks := Placeholders(|columns|);
    MarksNone(", ");
    forall i | 0 <= i < |columns| ensures Marks(columns[i]) == 0 {
      assert Identifier(columns[i]);
      MarksNone(columns[i]);
    }
    MarksJoinNone(columns, ", ");
    forall i | 0 <= i < |columns| ensures Marks(marks[i]) == 1 {
      assert marks[i][1..] == "";
    }
    MarksJoinOne(marks, ", ");
  }


  /** `<name> = ?` for each name, in order. */
  function Bindings(names: seq<string>): (bs: seq<string>)
    ensures |bs| == |names| && forall i :: 0 <= i < |names| ==> bs[i] == names[i] + " = ?"
  {
    seq(|names|, i requires 0 <= i < |names| => names[i] + " = ?")
  }

  /** Joining the bindings of mark-free names gives one mark per name. */
  lemma BindingsMarks(names: seq<string>, sep: string)
    requires Marks(sep) == 0
    requires forall i :: 0 <= i < |names| ==> Identifier(names[i])
    ensures Marks(Join(Bindings(names), sep)) == |names|
  {
    var bs := Bindings(names);
    forall i | 0 <= i < |names| ensures Marks(bs[i]) == 1 {
      assert Identifier(names[i]);
      Binding(names[i]);
    }
    MarksJoinOne(bs, sep);
  }

  /** `update <table> set <c1> = ?, … where <table>.id = ?` bound to `attribute_values` and then the id. */
  function UpdateStatement(table: string, columns: seq<Column>, r: Record): (st: Statement)
    requires Identifier(table) && forall i :: 0 <= i < |columns| ==> Identifier(columns[i])
    ensures Marks(st.sql) == |st.binds| == |columns| + 1
    ensures st.binds == AttributeValues(columns, r) + [Attr(r, "id")]
  {
    var setList := Join(Bindings(columns), ", ");
    MarksNone(", ");
    BindingsMarks(columns, ", ");
    UpdateTextMarks(table, setList);
    Statement(UpdateText(table, setList), AttributeValues(columns, r) + [Attr(r, "id")])
  }

  function UpdateText(table: string, setList: string): string
  {
    "update " + table + " set " + setList + " where " + table + ".id = ?"
  }

  /** An update has the marks of its set list and one more for the id. */
  lemma UpdateTextMarks(table: string, setList: string)
    requires Identifier(table)
    ensures Marks(UpdateText(table, setList)) == Marks(setList) + 1
  {
    var head := "update " + table + " set ";
    MarksNone(head);
    var tail := " where " + table + ".id";
    Binding(tail);
    MarksAppend(head, setList);
    MarksAppend(head + setList, tail + " = ?");
    assert UpdateText(table, setList) == head + setList + (tail + " = ?");
  }

  /** `SELECT * FROM <table> WHERE <k1> = ? AND <k2> = ? …` bound to the criteria values in order. */
  function WhereStatement(table: string, criteria: RubyHash.Hash<Column, Value>): (st: Statement)
    requires Identifier(table) && forall i :: 0 <= i < |criteria| ==> Identifier(criteria[i].0)
    ensures Marks(st.sql) == |st.binds| == |criteria|
    ensures st.binds == RubyHash.Values(criteria)
  {
    var keys := RubyHash.Keys(criteria);
    var lookup := Join(Bindings(keys), " AND ");
    MarksNone(" AND ");
    BindingsMarks(keys, " AND ");
    WhereTextMarks(table, lookup);
    Statement(WhereText(table, lookup), RubyHash.Values(criteria))
  }

  function WhereText(table: string, lookup: string): string
  {
    "SELECT * FROM " + table + " WHERE " + lookup
  }

  /** A lookup's marks are those of its conditions. */
  lemma WhereTextMarks(table: string, lookup: string)
    requires Identifier(table)
    ensures Marks(WhereText(table, lookup)) == Marks(lookup)
  {
    var head := "SELECT * FROM " + table + " WHERE ";
    MarksNone(head);
    MarksAppend(head, lookup);
  }
}

=== FILE: wrappers.dfy ===
/** Failure-carrying return types shared by every module of the model. */
module Wrappers {

  /** Ruby's `nil`-or-value, as the source's lookups return it. */
  datatype Option<+T> = None | Some(value: T)

  /** The outcome of an operation that may raise; usable with `:-`. */
  datatype Result<+T> = Success(value: T) | Failure(error: Error) {
    predicate IsFailure() {
      Failure?
    }

    function PropagateFailure<U>(): Result<U>
      requires Failure?
    {
      Failure(error)
    }

    function Extract(): T
      requires Success?
    {
      value
    }
  }

  /** The exceptions the modelled code raises, one constructor per cause. */
  datatype Error =
    | UnknownAttribute(name: string)   // `raise "unknown attribute '<name>'"` in the record constructor
    | NoMethod(name: string)           // NoMethodError: an accessor or option that does not exist
    | UninitializedConstant(name: string) // NameError raised by `constantize`
    | Driver(reason: string)           // an error raised by the SQL driver
    | DoubleRender                     // `raise "exception"` on a second render or redirect
    | StringIndex                      // String#[]= reached while parsing a nested form key
    | MergeOfNonHash                   // `merger` reaching a String: NoMethodError or TypeError

  /** The message Ruby attaches to an error raised with a string. */
  function Message(e: Error): (m: string)
    ensures e.UnknownAttribute? ==> m == "unknown attribute '" + e.name + "'"
  {
    match e
    case UnknownAttribute(name) => "unknown attribute '" + name + "'"
    case NoMethod(name) => "undefined method '" + name + "'"
    case UninitializedConstant(name) => "uninitialized constant " + name
    case Driver(reason) => reason
    case DoubleRender => "exception"
    case StringIndex => "string not matched"
    case MergeOfNonHash => "String cannot be merged with a Hash"
  }
}
